=== FILE: README.md ===
# Hospital registration core, modelled in Dafny

This project models the non-UI core of a small hospital-management application:

- the business layer that validates and registers a hospital;
- the persistence gateway over the `hospitals` table;
- the versioned schema migrator;
- the `Hospital` record and its row mapping;
- the dependency-injection container that wires them together.

Everything is pure: where the source mutates the object it was given, the model returns the changed value. The table is a sequence of rows plus the AUTOINCREMENT counter. The migration ledger and the DDL in effect so far form a `Db` value. The container is three maps and a count of factory calls. Each operation is a function from the old state to a result and a new state.

Modules, in dependency order:

| file | module | models |
|---|---|---|
| common.dfy | `Common` | `Option` and `Result`; a raised exception is an `Err` |
| text.dfy | `Text` | `str.strip()`, the ASCII part of the regex classes `\s`, `\d` and `\w`, ASCII case folding, substring search for `LIKE '%x%'`, the BINARY collation used by `ORDER BY`, and decimal rendering of ids |
| hospital.dfy | `HospitalModel` | the `Hospital` dataclass and its defaults, equality that ignores `compare=False` fields, `_hospital_to_params`, `from_row`, and the drop-down enumerations |
| repository.dfy | `Repository` | `HospitalRepository` over an in-memory table, with the table's UNIQUE and CHECK constraints |
| schema.dfy | `Schema` | `MIGRATIONS`, `_get_current_version` and `SchemaManager.migrate` |
| container.dfy | `Container` | `DIContainer` |
| service.dfy | `Service` | `ServiceResult`, the three patterns, `_validate`, `register_hospital`, `get_hospital`, `get_all_hospitals` and `is_first_run` |

Some behaviour depends on things the program does not control. These become parameters:

- **Timestamps:** `datetime('now','localtime')` is the `now` string passed to `Repository.Add`, and to `Repository.Update` for the `updated_at` trigger.
- **DDL outcomes:** whether a DDL statement succeeds is the oracle `ok: Statement -> bool` passed to `Schema.Migrate`.
- **Factory calls:** a factory call in the container is stamped with the container's call counter. This lets "the same cached object" be told apart from "a fresh object".

A migration step is not all-or-nothing. The connection is opened with Python's default isolation level (app/database/connection.py:38-42). In that mode a transaction begins only before the ledger `INSERT`, so each `CREATE` statement before it takes effect at once. The `rollback()` in `migrate` therefore undoes only the ledger row. `Schema.ApplyStep` keeps the statements that ran before a failure. The ledger stays without the version, so the next `migrate` runs the whole step again; every statement of the shipped migration says `IF NOT EXISTS`.

`_validate` checks its rules in a fixed order and reports the first one broken. It is modelled as a chain of stages:

1. `Validate` checks the mandatory fields.
2. `ValidateCapacity` checks beds and theatres.
3. `ValidateYear` checks the founding year.
4. `ValidateFormats` checks the email, phones and PIN code.
5. `ValidateKeys` checks the uniqueness rules.

Each stage states its success condition as a predicate. The conjunction of those predicates is `Valid`. Lemmas then pin down which message each kind of input produces.

## Model

| member | source | states |
|---|---|---|
| Text.Strip | app/services/hospital_service.py:122-135 | the stripped value is no longer than the input and has no whitespace at either end |
| Text.StripIsSlice | app/services/hospital_service.py:122-135 | the stripped value is a contiguous slice of the input with only whitespace before and after it |
| Text.StripEmptyIffBlank | app/services/hospital_service.py:137-139 | a field strips to the empty string exactly when it consists of whitespace only |
| Text.StripIdempotent | app/services/hospital_service.py:157-167 | stripping an already stripped value changes nothing |
| Text.Contains | app/repositories/hospital_repository.py:230-236 | the scan answers true exactly when the pattern occurs at some position of the text |
| Text.LexLeTotal | app/repositories/hospital_repository.py:208 | any two names are comparable under the collation `ORDER BY hospital_name` uses |
| Text.LexLeTransitive | app/repositories/hospital_repository.py:208 | the collation is transitive |
| Text.LexLeAntisymmetric | app/repositories/hospital_repository.py:208 | two names each sorting before the other are equal |
| Text.NatToString | app/services/hospital_service.py:96-97 | the rendered id `{saved.id}` is a non-empty run of decimal digits |
| Text.IntToString | app/services/hospital_service.py:96-97 | an integer renders as decimal digits, preceded by a `-` exactly when it is negative, with at least one digit after the sign |
| Text.NatToStringValue | app/services/hospital_service.py:96-97 | the rendered digits read back as the number itself, and a positive number has no leading zero |
| Text.IntToStringValue | app/services/hospital_service.py:96-97 | the rendering of any integer, sign included, reads back as that integer, with no leading zero after the sign unless it is zero |
| HospitalModel.NewHospital | app/models/hospital.py:33-67 | a record built from the eight leading fields has country "India", accreditation "None", year 2000, zero capacities, empty contact, admin and license fields, no optional text, is active and has no id or timestamps |
| HospitalModel.ToParams | app/repositories/hospital_repository.py:127-154 | the parameters carry the record's id, and `is_active` is stored as 1 when the flag is true and 0 otherwise |
| HospitalModel.FromRow | app/models/hospital.py:73-104 | the record read from a row carries the row's id and both timestamps, and is active exactly when the stored flag is non-zero |
| HospitalModel.RowRoundTrip | app/models/hospital.py:73-104 | writing a record and reading the row back gives the same record with the storage-supplied id and timestamps, equal to the original under dataclass equality |
| HospitalModel.ParamsRoundTrip | app/repositories/hospital_repository.py:127-154 | reading a row whose flag is 0 or 1 and writing it back gives the same id and data columns |
| HospitalModel.SameRecordIffSameColumns | app/models/hospital.py:64-67 | two records are equal as dataclasses exactly when they write the same 24 data columns |
| HospitalModel.MetadataIgnored | app/models/hospital.py:64-67 | records differing only in `id`, `created_at` or `updated_at` are equal, while `is_active` does take part in equality |
| HospitalModel.EnumerationShapes | app/models/hospital.py:111-138 | five hospital types, four specializations and five accreditations, all distinct, including "NABH + ISO"; 37 states and territories; the default accreditation is one of the options |
| Repository.ExistsRegistrationNumber | app/repositories/hospital_repository.py:250-261 | true exactly when some row holds the number and either no id is excluded or that row's id differs from the excluded one |
| Repository.ExistsLicenseNumber | app/repositories/hospital_repository.py:263-274 | the same for license numbers |
| Repository.FindById | app/repositories/hospital_repository.py:187-193 | None exactly when no row has the id; otherwise the record read from a row with that id |
| Repository.FindByRegistrationNumber | app/repositories/hospital_repository.py:195-201 | None exactly when no row holds the number; otherwise the record read from a row holding it |
| Repository.FindByIdExact | app/repositories/hospital_repository.py:187-193 | in a table satisfying its constraints, looking up a row's id returns exactly that row |
| Repository.FindByRegistrationNumberExact | app/repositories/hospital_repository.py:195-201 | in a table satisfying its constraints, looking up a row's registration number returns exactly that row |
| Repository.ExistsIffFound | app/repositories/hospital_repository.py:250-261 | an existence check with no exclusion agrees with the lookup by registration number |
| Repository.SortByName | app/repositories/hospital_repository.py:208 | the result is sorted by name and is a permutation of the input |
| Repository.Select | app/repositories/hospital_repository.py:238-244 | a SELECT returns the records of exactly the rows satisfying every condition, no more records than rows, and no id twice when no key repeats in the table |
| Repository.DistinctIdsPermuted | app/repositories/hospital_repository.py:208 | reordering by name keeps ids distinct, so sorting never lists a hospital twice |
| Repository.FindAll | app/repositories/hospital_repository.py:203-210 | sorted by name; holds exactly the records of the rows that pass the active filter when it is asked for, each as often as the SELECT returns it, so no hospital twice in a consistent table; without the filter, one record per row |
| Repository.ConditionsMeanMatches | app/repositories/hospital_repository.py:220-240 | a row satisfies the AND-joined condition list exactly when it meets every criterion given; an empty or missing name or city imposes nothing |
| Repository.Search | app/repositories/hospital_repository.py:212-244 | sorted by name; a reordering of what the SELECT with the built conditions returns, so it holds exactly the records of the rows matching every given criterion, and no hospital twice in a consistent table |
| Repository.FindAllIsUnfilteredSearch | app/repositories/hospital_repository.py:203-244 | `find_all` returns the same list as `search` with no name, id or city |
| Repository.CitySearchIgnoresCase | app/repositories/hospital_repository.py:234-236 | searching for city "del" finds both "Delhi" and "New Delhi" |
| Repository.ConstraintViolation | app/database/schema.py:23-49 | no violation is reported exactly when the bed count is positive and no other row holds either unique key |
| Repository.NextId | app/database/schema.py:19 | a new AUTOINCREMENT key exceeds the counter and every key in the table |
| Repository.Add | app/repositories/hospital_repository.py:167-173 | succeeds exactly when every integer column fits a signed 64-bit SQLite INTEGER and the columns satisfy the constraints; an integer out of range fails while binding with sqlite3's "Python int too large to convert to SQLite INTEGER"; on success it appends one row under the next AUTOINCREMENT key, advances the counter to it and returns the same record with that id set; a constraint failure raises an integrity error naming the broken constraint; no failure stores anything |
| Repository.Overwrite | app/database/schema.py:61-70 | the UPDATE changes exactly the rows with the given id, giving them the new columns, and the trigger then stamps each of them with the current time as `updated_at`; other rows are untouched |
| Repository.Update | app/repositories/hospital_repository.py:175-181 | without an id it raises `ValueError`; an id or integer column outside the 64-bit INTEGER range fails while binding; an unknown id changes nothing; otherwise only the row with that id gets the 24 new data columns, its creation time stays, and the `trg_hospital_updated_at` trigger sets its `updated_at` to the current time; every other row stays as it was; when the row exists, the update succeeds exactly when everything binds and no constraint would be broken, and once everything binds a failure is only ever a broken constraint |
| Repository.AddPreservesWf | app/repositories/hospital_repository.py:167-173 | a successful add keeps keys unique, both UNIQUE columns unique and every bed count positive |
| Repository.UpdatePreservesWf | app/repositories/hospital_repository.py:175-181 | a successful update keeps the same constraints |
| Repository.AddThenFind | app/repositories/hospital_repository.py:167-173 | after an add, looking up the new id gives back the stored record, equal to the one added |
| Repository.UpdateThenFind | app/repositories/hospital_repository.py:175-181 | after an update of an existing row, looking it up gives the written record with the row's original creation time and the update's time as `updated_at` |
| Schema.CurrentVersion | app/database/schema.py:157-162 | 0 on an empty ledger; otherwise a version the ledger holds that is at least every other version |
| Schema.Pending | app/database/schema.py:128-130 | exactly the migrations newer than the current version, taken from the list |
| Schema.PendingAppend | app/database/schema.py:128-130 | the pending list keeps the migrations in list order, each occurrence once: it splits over concatenation, and a single migration is kept exactly when it is newer than the current version |
| Schema.FirstFailing | app/database/schema.py:134-135 | the statements run in order up to the first one that fails: every earlier one succeeds, and the one found fails |
| Schema.ApplyStep | app/database/schema.py:132-146 | a step commits exactly when every statement succeeds and the version is not yet recorded, and then appends its ledger row and its statements; otherwise the ledger is unchanged, but the DDL statements that ran before the failure stay in effect, because they ran outside the transaction, and the cause names the failing statement, or the ledger insert when all statements ran |
| Schema.MigrateFromIsApplyPending | app/database/schema.py:128-146 | the skipping loop does the same as applying the pending migrations in list order |
| Schema.Migrate | app/database/schema.py:123-146 | `migrate` applies, in list order, exactly the migrations newer than the version read at the start |
| Schema.ApplyAllStatements | app/database/schema.py:132-146 | the statements in effect after applying a list of steps are those of the committed steps, then those the failed step ran before failing |
| Schema.ApplyAllCommits | app/database/schema.py:132-146 | after applying a list of steps, the ledger holds the rows of the steps that committed before the first failure; the statements in effect are theirs followed by the failed step's leftovers, and nothing else |
| Schema.ApplyAllStops | app/database/schema.py:142-146 | the call fails exactly when some step did not commit; the error then names that step, which still cannot be applied to what was left |
| Schema.MigrateEffect | app/database/schema.py:123-146 | `migrate` commits a prefix of the pending migrations in order, returns normally exactly when all of them committed, and otherwise raises naming the next one, whose ledger row is missing while its statements before the failure stay |
| Schema.MigrateIdempotent | app/database/schema.py:123-130 | a second `migrate` right after a successful one changes nothing |
| Schema.FreshDatabase | app/database/schema.py:98-110 | on an empty database where every statement succeeds, the ledger ends with one row, version 1, and the five statements of that migration are run |
| Schema.FreshDatabaseFailure | app/database/schema.py:132-146 | if a statement of the first migration fails on an empty database, no version is recorded, the error names version 1 and the first failing statement, and the statements before it stay in effect |
| Schema.TriggerFailureKeepsTables | app/database/schema.py:98-110 | if the trigger statement fails on an empty database, the ledger table and the hospitals table stay created and no version is recorded |
| Schema.MigrateKeepsLedgerAscending | app/database/schema.py:128-140 | with versions ascending in the list, ledger versions stay strictly ascending, so no version is recorded twice |
| Container.RegisterSingleton | app/container.py:33-36 | records the factory and flags it for caching; the cache is not touched |
| Container.RegisterFactory | app/container.py:38-41 | records the factory and flags it not to cache |
| Container.RegisterInstance | app/container.py:43-46 | caches the object and calls nothing |
| Container.RegistrationRegisters | app/container.py:76-78 | `is_registered` holds for a name right after any of the three registrations of it, and each registration leaves every other name's answer unchanged |
| Container.Resolve | app/container.py:52-78 | fails exactly when the name is not registered; a cached object is returned unchanged; otherwise the factory is called once, and the object is cached exactly when the name is flagged singleton |
| Container.UnregisteredRaises | app/container.py:63-66 | in an empty container every name is unregistered and resolving it raises |
| Container.SingletonBuiltOnce | app/container.py:68-72 | after `register_singleton`, two resolves return the same object and call the factory once |
| Container.FactoryBuildsEachTime | app/container.py:68-72 | after `register_factory`, two resolves call the factory twice, return two different objects and cache nothing |
| Container.InstanceReturnedAsIs | app/container.py:43-61 | after `register_instance`, resolve returns that object and leaves the container unchanged |
| Container.CachedInstanceWins | app/container.py:60-61 | once an object is cached, re-registering a factory or singleton under its name does not change what resolve returns |
| Container.ResolveFresh | app/container.py:68-72 | a newly built object differs from every cached one, and the container stays consistent |
| Container.RegistrationKeepsWf | app/container.py:33-46 | every registration keeps the container consistent |
| Container.ResolveKeepsRegistrations | app/container.py:52-78 | resolving one name never unregisters another |
| Service.AllInIff | app/services/hospital_service.py:72-76 | the left-to-right scan of a character class accepts exactly the strings whose every character is in the class |
| Service.IndexOfIsFirst | app/services/hospital_service.py:72 | the position found is the first `@`, and none is found exactly when the string holds no `@` |
| Service.LastIndexOfIsLast | app/services/hospital_service.py:72 | the position found is the last `.`, and none is found exactly when the string holds no `.` |
| Service.IsEmail | app/services/hospital_service.py:72 | an accepted address holds an `@` and has at least six characters, as the shortest match `a@b.cd` has |
| Service.IsEmailIffShape | app/services/hospital_service.py:72 | the matcher accepts exactly the strings the email pattern describes, under some split into local part, domain and top-level label, and an accepted address holds exactly one `@` |
| Service.AcceptedHasShape | app/services/hospital_service.py:72 | every accepted address has the shape the pattern describes |
| Service.ShapeIsAccepted | app/services/hospital_service.py:72 | every split the pattern allows is accepted |
| Service.IsPhone | app/services/hospital_service.py:74 | accepted exactly when the string is 7 to 15 digits, or a `+` followed by 7 to 15 digits |
| Service.PlusIsOptional | app/services/hospital_service.py:74 | a run of digits is a phone number with the leading `+` exactly when it is one without it |
| Service.PinIff | app/services/hospital_service.py:76 | a PIN code is accepted exactly when it has 4 to 10 characters, each a letter, digit, whitespace or hyphen |
| Service.PinCaseInsensitive | app/services/hospital_service.py:76 | a PIN code is accepted exactly when its lower-case form is |
| Service.PinExamplesAccepted | app/services/hospital_service.py:76 | "560001", "SW1A 1AA" and "ab-12" are accepted PIN codes |
| Service.PinExamplesRejected | app/services/hospital_service.py:76 | "123", "56000#" and an 11-digit code are refused |
| Service.FilledIffStripNonEmpty | app/services/hospital_service.py:137-139 | a field counts as filled exactly when its stripped value is not empty |
| Service.FirstBlank | app/services/hospital_service.py:137-139 | None exactly when every field is filled; otherwise the position of the first unfilled field, with every earlier one filled |
| Service.NoBlankIffAllFilled | app/services/hospital_service.py:121-139 | the mandatory scan finds nothing exactly when all 14 listed fields are filled |
| Service.Validate | app/services/hospital_service.py:117-176 | a record meeting every rule gets exactly a success reporting "Success" without data; any other record gets a failure without data |
| Service.ValidateCapacity | app/services/hospital_service.py:142-149 | from the capacity rules on, succeeds exactly when capacity, year, formats and keys are all right |
| Service.ValidateYear | app/services/hospital_service.py:150-154 | from the year rule on, succeeds exactly when year, formats and keys are all right |
| Service.ValidateFormats | app/services/hospital_service.py:157-164 | from the format rules on, succeeds exactly when formats and keys are right |
| Service.ValidateKeys | app/services/hospital_service.py:167-174 | succeeds exactly when no other row holds the stripped registration or license number |
| Service.KeysFreeIffNoMatch | app/services/hospital_service.py:167-174 | the two repository queries both answer "no" exactly when no other row holds either stripped key |
| Service.ReachesCapacity | app/services/hospital_service.py:137-142 | with every mandatory field filled, validation goes on to the capacity rules |
| Service.ReachesFormats | app/services/hospital_service.py:142-157 | with the numeric rules also met, validation goes on to the format rules |
| Service.ReachesKeys | app/services/hospital_service.py:157-167 | with the formats also right, only the uniqueness rules remain |
| Service.RequiredInOrder | app/services/hospital_service.py:137-139 | when field k is the first unfilled one, the result is "<label k> is required.", whatever else is wrong |
| Service.DefaultCountryFilled | app/models/hospital.py:33 | the default country counts as filled, while the empty default of the contact fields does not |
| Service.DefaultsLackPhone | app/services/hospital_service.py:121-139 | a record built from the eight leading fields, all filled, is refused with "Primary Phone is required." |
| Service.RangeRulesInOrder | app/services/hospital_service.py:142-154 | with all fields filled, the bed, ICU, theatre and year rules report their own message, in that order |
| Service.YearBoundaries | app/services/hospital_service.py:150-154 | changing only the year of a valid record keeps it valid exactly when the new year is in 1800..2026, both ends included |
| Service.IcuMayEqualTotal | app/services/hospital_service.py:146-147 | ICU beds equal to the total are accepted |
| Service.FormatRulesInOrder | app/services/hospital_service.py:157-164 | the email, primary phone, emergency contact and PIN formats report their own messages, in that order, each on the stripped value |
| Service.DuplicateRegistrationReported | app/services/hospital_service.py:167-170 | a registration number held by another row is refused, quoting the number as entered |
| Service.DuplicateLicenseReported | app/services/hospital_service.py:171-174 | with the registration number free, a license number held by another row is refused |
| Service.ChoicesNotChecked | app/services/hospital_service.py:117-176 | any filled-in hospital type, specialization or state and any accreditation validate alike, so drop-down membership is never checked |
| Service.RegisterHospital | app/services/hospital_service.py:85-102 | a record failing validation gets the validation result and the table is unchanged; a valid record is stored exactly when its integers fit the 64-bit INTEGER range and storage accepts its columns; otherwise the result is "Database error: " followed by the bind error or the constraint message, without data and with the table unchanged; a success returns the record with the next AUTOINCREMENT key as its id, appends exactly that one row and reports the name and id |
| Service.FreeKeysAdmissible | app/services/hospital_service.py:167-174 | for a new record with stripped keys, free keys and a positive bed count satisfy every storage constraint |
| Service.ValidRecordIsStored | app/services/hospital_service.py:90-100 | a valid new record with stripped keys is registered exactly when its integers fit the 64-bit INTEGER range, since validation sets no upper bound on the capacities |
| Service.PresetIdViolates | app/services/hospital_service.py:167-170 | a record carrying an existing row's id and that row's registration number breaks a unique index on insert, the one on the registration number when no row holds its license number |
| Service.PresetIdCaughtByStorage | app/services/hospital_service.py:94-102 | such a record passes validation, but registration fails and the table is unchanged; when its integers bind, the message is "Database error: UNIQUE constraint failed: " and one of the two key columns, the registration number when no row holds its license number; otherwise it is the bind error |
| Service.PaddedNumberNotBlocked | app/services/hospital_service.py:167-170 | a stored number with surrounding spaces does not block registering the same number without them: the registration succeeds exactly when the integers bind, and then the two stored numbers strip to the same value |
| Service.RegisterPreservesWf | app/services/hospital_service.py:85-102 | registration keeps the table's constraints |
| Service.RegisteredIsFound | app/services/hospital_service.py:94-100 | the record a successful registration returns can be read back by its id, equal to the one registered |
| Service.GetHospital | app/services/hospital_service.py:104-105 | None exactly when no row has the id; otherwise the record read from a row with that id, and in a consistent table the record of the one row with that id |
| Service.GetAllHospitals | app/services/hospital_service.py:107-108 | sorted by name; exactly the records of the active rows, each as often as the SELECT returns it, so no hospital twice in a consistent table |
| Service.IsFirstRun | app/services/hospital_service.py:110-111 | true exactly when the table has no rows, inactive ones included |
| Service.RegisterEndsFirstRun | app/services/hospital_service.py:110-111 | on an empty table a valid record is registered exactly when its integers fit the 64-bit INTEGER range, and after a successful registration it is no longer the first run |

## Left out

- The desktop and web front ends, `main.py`, and the connection wrapper with its lock: these are widgets, HTTP handling, process start-up and I/O. The routes also call `search_hospitals` and `update_hospital` on the service, but the service does not define them, so they are not modelled.
- SQL text and `datetime('now','localtime')`: timestamps are opaque strings, and a DDL statement is an opaque item whose success is a parameter. The effect of the `updated_at` trigger is modelled in `Repository.Update`, assuming the trigger exists.
- `_ensure_version_table`: it runs `CREATE TABLE IF NOT EXISTS`, which leaves the ledger as it is. The model starts from the ledger it reads.
- The `print` in `migrate` and the wording of its `RuntimeError`: the error is modelled as the failing version and its cause.
- 64-bit row ids and SQLite's fallback when the AUTOINCREMENT key reaches its maximum: keys are unbounded integers. Bound parameters are range-checked only in `Repository.Add` and `Repository.Update`.
- Repository.Add: the source sets the id on the caller's `Hospital` object in place and returns that same object. The model has no shared objects: it returns the record with its id set, and the caller's value is unchanged.
- Service.ValidateKeys: the uniqueness queries bind the record's id as `exclude_id`. A preset id outside the 64-bit INTEGER range makes them raise `OverflowError` out of `_validate`, which `register_hospital` does not catch there. The model compares ids as unbounded integers.
- Service.GetHospital: an id outside the 64-bit INTEGER range makes `find_by_id` raise `OverflowError`. The model answers None.
- Text.Strip: only ASCII whitespace is stripped. Python also strips Unicode spaces.
- Service.IsEmail: `\w` is ASCII letters, digits and underscore. Python's `\w` also matches Unicode letters and digits.
- Service.IsPhone: `\d` is ASCII digits only. Python's `\d` also matches other Unicode decimal digits.
- Service.IsPin: `\s` is ASCII whitespace only. Case-insensitive matching is modelled as ASCII letters of either case, without the few non-ASCII letters that `IGNORECASE` folds onto `[A-Z]`.
- Repository.Search: `LIKE` is modelled as an ASCII case-insensitive substring test. The `%` and `_` in user input act as SQL wildcards, and that is not modelled.
- Repository.ConstraintViolation: when a record clashes on both unique keys, which index SQLite names depends on its internal index order, not on the schema. The model names the registration number.
- Service.PresetIdViolates: when the license number also clashes, it promises only that one of the two key columns is named, for the reason above.
- Service.PresetIdCaughtByStorage: likewise, the exact message is promised only when no row holds the record's license number.
- Repository.SortByName: the order of equal names is left open, as SQL leaves it. Only sortedness and being a permutation are stated.
- Container.Resolve: thread safety is not modelled, because the class takes no lock. A factory is opaque and does not resolve other names while it runs.
- Service.RegisterHospital: the message `str(exc)` of an arbitrary exception is modelled only for the constraint failures storage can raise and for an integer too large to bind. That last message is the one CPython's sqlite3 module gives, and its wording belongs to the Python version, not to this repository. A lost connection and other I/O errors are not modelled.
- `ServiceResult.ok` and `ServiceResult.fail` are written as the constructor with `success` true or false. A failure never carries data, as `Service.Validate` and `Service.RegisterHospital` state.

=== FILE: common.dfy ===
/** Optional values and results with an error, as used throughout the model.
    Python's `None` becomes `None`; a raised exception becomes `Err`. */
module Common {

  datatype Option<+T> = None | Some(value: T)

  datatype Result<+T, +E> = Ok(value: T) | Err(error: E)
}

=== FILE: container.dfy ===
/** The dependency-injection container (app/container.py): three maps keyed by
    interface name, as a state machine. Calling a factory is modelled as
    producing a new object stamped with the number of factory calls made so far,
    so "a fresh instance" and "the same cached instance" can be told apart. */
module Container {
  import opened Common

  /** A zero-argument callable registered under a name. */
  datatype Factory = Factory(tag: string)

  /** An object the container hands out: built by the `serial`-th factory call
      this container made, or supplied ready-made to `register_instance`. */
  datatype Instance = Built(factory: Factory, serial: nat) | Supplied(tag: string)

  datatype Container = Container(
    singletons: map<string, Instance>,
    factories: map<string, Factory>,
    singletonFlags: map<string, bool>,
    calls: nat)

  const Empty: Container := Container(map[], map[], map[], 0)

  datatype KeyError = KeyError(message: string)

  /** Every cached object built by a factory came from an earlier call. */
  predicate Wf(c: Container) {
    forall n :: n in c.singletons && c.singletons[n].Built? ==> c.singletons[n].serial < c.calls
  }

  /** `register_singleton`: remember the factory, flagged for caching; nothing
      already cached is touched. */
  function RegisterSingleton(c: Container, name: string, f: Factory): (c': Container)
    ensures c'.factories == c.factories[name := f]
    ensures c'.singletonFlags == c.singletonFlags[name := true]
    ensures c'.singletons == c.singletons && c'.calls == c.calls
  {
    c.(factories := c.factories[name := f], singletonFlags := c.singletonFlags[name := true])
  }

  /** `register_factory`: remember the factory, flagged not to cache. */
  function RegisterFactory(c: Container, name: string, f: Factory): (c': Container)
    ensures c'.factories == c.factories[name := f]
    ensures c'.singletonFlags == c.singletonFlags[name := false]
    ensures c'.singletons == c.singletons && c'.calls == c.calls
  {
    c.(factories := c.factories[name := f], singletonFlags := c.singletonFlags[name := false])
  }

  /** `register_instance`: cache a ready-made object; no factory is involved. */
  function RegisterInstance(c: Container, name: string, x: Instance): (c': Container)
    ensures c'.singletons == c.singletons[name := x]
    ensures c'.singletonFlags == c.singletonFlags[name := true]
    ensures c'.factories == c.factories && c'.calls == c.calls
  {
    c.(singletons := c.singletons[name := x], singletonFlags := c.singletonFlags[name := true])
  }

  /** `is_registered`. */
  predicate IsRegistered(c: Container, name: string) {
    name in c.factories || name in c.singletons
  }

  /** `resolve`: a cached object wins; otherwise the factory is called once and
      its result cached when the name is flagged singleton; an unknown name
      raises `KeyError`. */
  function Resolve(c: Container, name: string): (r: Result<(Instance, Container), KeyError>)
    ensures r.Err? <==> !IsRegistered(c, name)
    ensures name in c.singletons ==> r == Ok((c.singletons[name], c))
    ensures name !in c.singletons && name in c.factories ==>
      var (x, c') := r.value;
      && x == Built(c.factories[name], c.calls)
      && c'.calls == c.calls + 1
      && c'.factories == c.factories && c'.singletonFlags == c.singletonFlags
      && (name in c.singletonFlags && c.singletonFlags[name] ==> c'.singletons == c.singletons[name := x])
      && (!(name in c.singletonFlags && c.singletonFlags[name]) ==> c'.singletons == c.singletons)
  {
    if name in c.singletons then Ok((c.singletons[name], c))
    else if name !in c.factories then
      Err(KeyError("[DIContainer] Dependency '" + name + "' is not registered."))
    else
      var x := Built(c.factories[name], c.calls);
      var c1 := c.(calls := c.calls + 1);
      var cache := if name in c.singletonFlags then c.singletonFlags[name] else false;
      if cache then Ok((x, c1.(singletons := c1.singletons[name := x]))) else Ok((x, c1))
  }

  // ---------------------------------------------------------------------------
  // Behaviour of the three registration kinds
  // ---------------------------------------------------------------------------

  /** Each registration kind registers its name and leaves every other name's
      registration as it was. */
  lemma RegistrationRegisters(c: Container, name: string, other: string, f: Factory, x: Instance)
    ensures IsRegistered(RegisterSingleton(c, name, f), other) <==> other == name || IsRegistered(c, other)
    ensures IsRegistered(RegisterFactory(c, name, f), other) <==> other == name || IsRegistered(c, other)
    ensures IsRegistered(RegisterInstance(c, name, x), other) <==> other == name || IsRegistered(c, other)
  {
  }

  /** Nothing registered: resolving any name raises. */
  lemma UnregisteredRaises(name: string)
    ensures Resolve(Empty, name).Err?
    ensures !IsRegistered(Empty, name)
  {
  }

  /** After `register_singleton`, the first resolve calls the factory and the
      second returns the very same object without calling it again. */
  lemma SingletonBuiltOnce(c: Container, name: string, f: Factory)
    requires name !in c.singletons
    ensures var c0 := RegisterSingleton(c, name, f);
      var (x1, c1) := Resolve(c0, name).value;
      var (x2, c2) := Resolve(c1, name).value;
      && x1 == Built(f, c.calls)
      && x2 == x1
      && c2.calls == c.calls + 1
  {
  }

  /** After `register_factory`, every resolve calls the factory again, so two
      resolves give two different objects, and nothing is cached. */
  lemma FactoryBuildsEachTime(c: Container, name: string, f: Factory)
    requires name !in c.singletons
    ensures var c0 := RegisterFactory(c, name, f);
      var (x1, c1) := Resolve(c0, name).value;
      var (x2, c2) := Resolve(c1, name).value;
      && x1 == Built(f, c.calls) && x2 == Built(f, c.calls + 1)
      && x1 != x2
      && name !in c2.singletons
      && c2.calls == c.calls + 2
  {
  }

  /** `register_instance` makes `resolve` return that object, calling nothing. */
  lemma InstanceReturnedAsIs(c: Container, name: string, x: Instance)
    ensures var c0 := RegisterInstance(c, name, x);
      Resolve(c0, name) == Ok((x, c0))
  {
  }

  /** Once an object is cached, registering a factory or singleton under the same
      name does not change what `resolve` returns. */
  lemma CachedInstanceWins(c: Container, name: string, f: Factory)
    requires name in c.singletons
    ensures Resolve(RegisterFactory(c, name, f), name).value.0 == c.singletons[name]
    ensures Resolve(RegisterSingleton(c, name, f), name).value.0 == c.singletons[name]
  {
  }

  /** Every operation keeps the container well-formed, and an object a factory
      builds differs from every object already cached. */
  lemma ResolveFresh(c: Container, name: string)
    requires Wf(c) && IsRegistered(c, name) && name !in c.singletons
    ensures var (x, c') := Resolve(c, name).value;
      && Wf(c')
      && forall n :: n in c.singletons ==> c.singletons[n] != x
  {
    var (x, c') := Resolve(c, name).value;
    forall n | n in c'.singletons && c'.singletons[n].Built?
      ensures c'.singletons[n].serial < c'.calls
    {
      if n != name {
        assert c'.singletons[n] == c.singletons[n];
      }
    }
  }

  lemma RegistrationKeepsWf(c: Container, name: string, f: Factory, x: Instance)
    requires Wf(c)
    requires x.Supplied?
    ensures Wf(RegisterSingleton(c, name, f))
    ensures Wf(RegisterFactory(c, name, f))
    ensures Wf(RegisterInstance(c, name, x))
  {
  }

  /** Resolving one registered name leaves any other registered name registered. */
  lemma ResolveKeepsRegistrations(c: Container, name: string, other: string)
    requires IsRegistered(c, name) && IsRegistered(c, other)
    ensures IsRegistered(Resolve(c, name).value.1, other)
  {
  }
}

=== FILE: hospital.dfy ===
/** The Hospital entity (app/models/hospital.py), its storage row and the
    mapping between the two (`_hospital_to_params` and `Hospital.from_row`). */
module HospitalModel {
  import opened Common

  /** One registered hospital. Text columns the table declares NOT NULL are
      plain strings; nullable ones are `Option<string>`. The last four fields
      are metadata filled in by storage. */
  datatype Hospital = Hospital(
    // identity
    hospitalName: string,
    registrationNumber: string,
    hospitalType: string,
    specializationType: string,
    // location
    addressLine1: string,
    city: string,
    state: string,
    pinCode: string,
    country: string,
    addressLine2: Option<string>,
    // contact
    phonePrimary: string,
    phoneAlternate: Option<string>,
    emergencyContact: string,
    email: string,
    website: Option<string>,
    // capacity
    totalBeds: int,
    icuBeds: int,
    operationTheaters: int,
    // administration
    administratorName: string,
    licenseNumber: string,
    accreditation: string,
    establishedYear: int,
    gstin: Option<string>,
    // metadata
    id: Option<int>,
    isActive: bool,
    createdAt: Option<string>,
    updatedAt: Option<string>)

  /** The dataclass constructor called with the eight leading fields only; every
      other field takes its declared default. */
  function NewHospital(
    hospitalName: string, registrationNumber: string, hospitalType: string,
    specializationType: string, addressLine1: string, city: string, state: string,
    pinCode: string): (h: Hospital)
    ensures h.country == "India" && h.accreditation == "None"
    ensures h.establishedYear == 2000
    ensures h.totalBeds == 0 && h.icuBeds == 0 && h.operationTheaters == 0
    ensures h.phonePrimary == "" && h.emergencyContact == "" && h.email == ""
    ensures h.administratorName == "" && h.licenseNumber == ""
    ensures h.addressLine2.None? && h.phoneAlternate.None? && h.website.None? && h.gstin.None?
    ensures h.isActive && h.id.None? && h.createdAt.None? && h.updatedAt.None?
  {
    Hospital(
      hospitalName, registrationNumber, hospitalType, specializationType,
      addressLine1, city, state, pinCode, "India", None,
      "", None, "", "", None,
      0, 0, 0,
      "", "", "None", 2000, None,
      None, true, None, None)
  }

  /** The record with its `compare=False` fields cleared. */
  function Content(h: Hospital): Hospital {
    h.(id := None, createdAt := None, updatedAt := None)
  }

  /** Dataclass `==`: every field except `id`, `created_at` and `updated_at`. */
  predicate SameRecord(a: Hospital, b: Hospital) {
    Content(a) == Content(b)
  }

  // ---------------------------------------------------------------------------
  // Storage representation
  // ---------------------------------------------------------------------------

  /** The 24 data columns written by INSERT and UPDATE; `is_active` is stored as
      an integer. */
  datatype Columns = Columns(
    hospitalName: string,
    registrationNumber: string,
    hospitalType: string,
    specializationType: string,
    addressLine1: string,
    addressLine2: Option<string>,
    city: string,
    state: string,
    pinCode: string,
    country: string,
    phonePrimary: string,
    phoneAlternate: Option<string>,
    emergencyContact: string,
    email: string,
    website: Option<string>,
    totalBeds: int,
    icuBeds: int,
    operationTheaters: int,
    administratorName: string,
    licenseNumber: string,
    accreditation: string,
    establishedYear: int,
    gstin: Option<string>,
    isActive: int)

  /** The bound parameters of an INSERT or UPDATE: the id plus the data columns. */
  datatype Params = Params(id: Option<int>, cols: Columns)

  /** A stored row: the key storage assigned, the data columns and the timestamps. */
  datatype Row = Row(id: int, cols: Columns, createdAt: string, updatedAt: string)

  /** `_hospital_to_params`. */
  function ToParams(h: Hospital): (p: Params)
    ensures p.id == h.id
    ensures p.cols.isActive == 0 || p.cols.isActive == 1
    ensures p.cols.isActive == 1 <==> h.isActive
  {
    Params(h.id, Columns(
      h.hospitalName, h.registrationNumber, h.hospitalType, h.specializationType,
      h.addressLine1, h.addressLine2, h.city, h.state, h.pinCode, h.country,
      h.phonePrimary, h.phoneAlternate, h.emergencyContact, h.email, h.website,
      h.totalBeds, h.icuBeds, h.operationTheaters,
      h.administratorName, h.licenseNumber, h.accreditation, h.establishedYear,
      h.gstin, if h.isActive then 1 else 0))
  }

  /** `Hospital.from_row`: each column to the field of the same name, with
      `is_active` read through Python's `bool()`. */
  function FromRow(row: Row): (h: Hospital)
    ensures h.id == Some(row.id)
    ensures h.createdAt == Some(row.createdAt) && h.updatedAt == Some(row.updatedAt)
    ensures h.isActive <==> row.cols.isActive != 0
  {
    var c := row.cols;
    Hospital(
      c.hospitalName, c.registrationNumber, c.hospitalType, c.specializationType,
      c.addressLine1, c.city, c.state, c.pinCode, c.country, c.addressLine2,
      c.phonePrimary, c.phoneAlternate, c.emergencyContact, c.email, c.website,
      c.totalBeds, c.icuBeds, c.operationTheaters,
      c.administratorName, c.licenseNumber, c.accreditation, c.establishedYear, c.gstin,
      Some(row.id), c.isActive != 0, Some(row.createdAt), Some(row.updatedAt))
  }

  /** Writing a hospital and reading the row back gives the same record, now
      carrying the id and timestamps storage supplied. */
  lemma RowRoundTrip(h: Hospital, id: int, createdAt: string, updatedAt: string)
    ensures FromRow(Row(id, ToParams(h).cols, createdAt, updatedAt))
         == h.(id := Some(id), createdAt := Some(createdAt), updatedAt := Some(updatedAt))
    ensures SameRecord(FromRow(Row(id, ToParams(h).cols, createdAt, updatedAt)), h)
  {
  }

  /** Reading a row and writing it back gives the same data columns, provided the
      stored flag is 0 or 1 (every row written through `ToParams` is). */
  lemma ParamsRoundTrip(row: Row)
    requires row.cols.isActive == 0 || row.cols.isActive == 1
    ensures ToParams(FromRow(row)) == Params(Some(row.id), row.cols)
  {
  }

  /** Two records are equal as dataclasses exactly when they write the same
      data columns. */
  lemma SameRecordIffSameColumns(a: Hospital, b: Hospital)
    ensures SameRecord(a, b) <==> ToParams(a).cols == ToParams(b).cols
  {
    if ToParams(a).cols == ToParams(b).cols {
      assert a.isActive == b.isActive;
    }
  }

  /** Changing only metadata never changes record equality. */
  lemma MetadataIgnored(h: Hospital, id: Option<int>, createdAt: Option<string>, updatedAt: Option<string>)
    ensures SameRecord(h, h.(id := id, createdAt := createdAt, updatedAt := updatedAt))
    ensures h.isActive ==> !SameRecord(h, h.(isActive := false))
  {
  }

  // ---------------------------------------------------------------------------
  // Drop-down enumerations (the validator does not check membership in them)
  // ---------------------------------------------------------------------------

  const HospitalTypes: seq<string> :=
    ["Government", "Private", "Semi-Government", "Trust", "Charitable"]

  const SpecializationTypes: seq<string> :=
    ["Multi-Specialty", "Super-Specialty", "General", "Single-Specialty"]

  const AccreditationOptions: seq<string> :=
    ["None", "NABH", "JCI", "ISO 9001", "NABH + ISO"]

  const IndiaStates: seq<string> := [
    "Andhra Pradesh", "Arunachal Pradesh", "Assam", "Bihar", "Chhattisgarh",
    "Goa", "Gujarat", "Haryana", "Himachal Pradesh", "Jharkhand",
    "Karnataka", "Kerala", "Madhya Pradesh", "Maharashtra", "Manipur",
    "Meghalaya", "Mizoram", "Nagaland", "Odisha", "Punjab",
    "Rajasthan", "Sikkim", "Tamil Nadu", "Telangana", "Tripura",
    "Uttar Pradesh", "Uttarakhand", "West Bengal",
    "Andaman and Nicobar Islands", "Chandigarh", "Dadra and Nagar Haveli",
    "Daman and Diu", "Delhi", "Jammu and Kashmir", "Ladakh",
    "Lakshadweep", "Puducherry"]

  predicate Distinct(xs: seq<string>) {
    forall i, j :: 0 <= i < j < |xs| ==> xs[i] != xs[j]
  }

  lemma EnumerationShapes()
    ensures |HospitalTypes| == 5 && Distinct(HospitalTypes)
    ensures |SpecializationTypes| == 4 && Distinct(SpecializationTypes)
    ensures |AccreditationOptions| == 5 && Distinct(AccreditationOptions)
    ensures "NABH + ISO" in AccreditationOptions && "None" == AccreditationOptions[0]
    ensures |IndiaStates| == 37
    ensures NewHospital("", "", "", "", "", "", "", "").accreditation in AccreditationOptions
  {
  }
}

=== FILE: repository.dfy ===
/** The persistence gateway (HospitalRepository) over an in-memory model of the
    `hospitals` table: rows in insertion order plus the AUTOINCREMENT counter.
    SQL statements become functions from the table to a new table or a result. */
module Repository {
  import opened Common
  import opened Text
  import opened HospitalModel

  /** The `hospitals` table and its `sqlite_sequence` entry. */
  datatype Table = Table(rows: seq<Row>, sequence: nat)

  const EmptyTable: Table := Table([], 0)

  /** `ValueError` is the precondition failure raised by `update`;
      `IntegrityError` is a constraint the storage refused. */
  datatype RepoError =
    | ValueError(message: string)
    | IntegrityError(message: string)
    | OverflowError(message: string)

  /** The two UNIQUE text columns. */
  datatype UniqueKey = RegistrationNumber | LicenseNumber

  function KeyOf(c: Columns, k: UniqueKey): string {
    match k
    case RegistrationNumber => c.registrationNumber
    case LicenseNumber => c.licenseNumber
  }

  /** SQLite's message for a unique index violation names the indexed column. */
  const UniqueFailed := "UNIQUE constraint failed: "

  function KeyColumnName(k: UniqueKey): string {
    match k
    case RegistrationNumber => "hospitals.registration_number"
    case LicenseNumber => "hospitals.license_number"
  }

  /** The constraints the table declares: a unique primary key, UNIQUE
      `registration_number` and `license_number`, and CHECK `total_beds > 0`. */
  predicate Wf(t: Table) {
    && (forall i, j :: 0 <= i < j < |t.rows| ==> t.rows[i].id != t.rows[j].id)
    && (forall i, j, k :: 0 <= i < j < |t.rows| ==> KeyOf(t.rows[i].cols, k) != KeyOf(t.rows[j].cols, k))
    && (forall i :: 0 <= i < |t.rows| ==> t.rows[i].cols.totalBeds > 0)
  }

  // ---------------------------------------------------------------------------
  // Existence checks
  // ---------------------------------------------------------------------------

  /** A row counts for an existence check unless its id is the excluded one. */
  predicate NotExcluded(row: Row, excludeId: Option<int>) {
    excludeId.None? || row.id != excludeId.value
  }

  /** `SELECT 1 ... WHERE <key> = ? [AND id != ?]`, as a scan of the rows. */
  function ExistsKey(rows: seq<Row>, k: UniqueKey, value: string, excludeId: Option<int>): (b: bool)
    ensures b <==> exists i :: 0 <= i < |rows| && KeyOf(rows[i].cols, k) == value && NotExcluded(rows[i], excludeId)
  {
    if |rows| == 0 then false
    else if KeyOf(rows[0].cols, k) == value && NotExcluded(rows[0], excludeId) then true
    else
      var b := ExistsKey(rows[1..], k, value, excludeId);
      assert forall i :: 0 < i < |rows| ==> rows[i] == rows[1..][i - 1];
      b
  }

  function ExistsRegistrationNumber(t: Table, regNo: string, excludeId: Option<int>): (b: bool)
    ensures b <==> exists i :: 0 <= i < |t.rows| && t.rows[i].cols.registrationNumber == regNo
                             && (excludeId.None? || t.rows[i].id != excludeId.value)
  {
    ExistsKey(t.rows, RegistrationNumber, regNo, excludeId)
  }

  function ExistsLicenseNumber(t: Table, licenseNo: string, excludeId: Option<int>): (b: bool)
    ensures b <==> exists i :: 0 <= i < |t.rows| && t.rows[i].cols.licenseNumber == licenseNo
                             && (excludeId.None? || t.rows[i].id != excludeId.value)
  {
    ExistsKey(t.rows, LicenseNumber, licenseNo, excludeId)
  }

  // ---------------------------------------------------------------------------
  // Point lookups
  // ---------------------------------------------------------------------------

  /** The position of the first row satisfying `p`, as a table scan finds it. */
  function FirstWhere(rows: seq<Row>, p: Row -> bool): (k: Option<nat>)
    ensures k.Some? ==> k.value < |rows| && p(rows[k.value])
    ensures k.Some? ==> forall j :: 0 <= j < k.value ==> !p(rows[j])
    ensures k.None? <==> forall j :: 0 <= j < |rows| ==> !p(rows[j])
  {
    if |rows| == 0 then None
    else if p(rows[0]) then Some(0)
    else
      var k := FirstWhere(rows[1..], p);
      assert forall j :: 0 < j < |rows| ==> rows[j] == rows[1..][j - 1];
      if k.None? then None else Some(k.value + 1)
  }

  /** `find_by_id`: the row with this primary key, or None. */
  function FindById(t: Table, id: int): (r: Option<Hospital>)
    ensures r.None? <==> forall i :: 0 <= i < |t.rows| ==> t.rows[i].id != id
    ensures r.Some? ==> exists i :: 0 <= i < |t.rows| && t.rows[i].id == id && r.value == FromRow(t.rows[i])
  {
    var k := FirstWhere(t.rows, (row: Row) => row.id == id);
    if k.None? then None else Some(FromRow(t.rows[k.value]))
  }

  /** `find_by_registration_number`: the row holding this number, or None. */
  function FindByRegistrationNumber(t: Table, regNo: string): (r: Option<Hospital>)
    ensures r.None? <==> forall i :: 0 <= i < |t.rows| ==> t.rows[i].cols.registrationNumber != regNo
    ensures r.Some? ==> exists i :: 0 <= i < |t.rows| && t.rows[i].cols.registrationNumber == regNo
                                     && r.value == FromRow(t.rows[i])
  {
    var k := FirstWhere(t.rows, (row: Row) => row.cols.registrationNumber == regNo);
    if k.None? then None else Some(FromRow(t.rows[k.value]))
  }

  /** In a well-formed table a lookup by key returns exactly the row holding it. */
  lemma FindByIdExact(t: Table, i: int)
    requires Wf(t) && 0 <= i < |t.rows|
    ensures FindById(t, t.rows[i].id) == Some(FromRow(t.rows[i]))
  {
  }

  lemma FindByRegistrationNumberExact(t: Table, i: int)
    requires Wf(t) && 0 <= i < |t.rows|
    ensures FindByRegistrationNumber(t, t.rows[i].cols.registrationNumber) == Some(FromRow(t.rows[i]))
  {
    var regNo := t.rows[i].cols.registrationNumber;
    var r := FindByRegistrationNumber(t, regNo);
    assert forall j :: 0 <= j < |t.rows| && j != i ==>
      KeyOf(t.rows[j].cols, RegistrationNumber) != KeyOf(t.rows[i].cols, RegistrationNumber);
  }

  /** An existence check without exclusion agrees with the lookup. */
  lemma ExistsIffFound(t: Table, regNo: string)
    ensures ExistsRegistrationNumber(t, regNo, None) <==> FindByRegistrationNumber(t, regNo).Some?
  {
  }

  // ---------------------------------------------------------------------------
  // Ordering by name
  // ---------------------------------------------------------------------------

  predicate SortedByName(xs: seq<Hospital>) {
    forall i, j :: 0 <= i < j < |xs| ==> LexLe(xs[i].hospitalName, xs[j].hospitalName)
  }

  /** Every name in `xs` sorts at or after `b`. */
  predicate NamesFrom(b: string, xs: seq<Hospital>) {
    forall k :: 0 <= k < |xs| ==> LexLe(b, xs[k].hospitalName)
  }

  function InsertByName(x: Hospital, xs: seq<Hospital>): seq<Hospital> {
    if |xs| == 0 then [x]
    else if LexLe(x.hospitalName, xs[0].hospitalName) then [x] + xs
    else [xs[0]] + InsertByName(x, xs[1..])
  }

  lemma {:induction false} InsertByNamePermutes(x: Hospital, xs: seq<Hospital>)
    ensures multiset(InsertByName(x, xs)) == multiset(xs) + multiset{x}
  {
    if |xs| > 0 && !LexLe(x.hospitalName, xs[0].hospitalName) {
      InsertByNamePermutes(x, xs[1..]);
      assert xs == [xs[0]] + xs[1..];
    }
  }

  lemma {:induction false} InsertByNameKeepsBound(b: string, x: Hospital, xs: seq<Hospital>)
    requires LexLe(b, x.hospitalName) && NamesFrom(b, xs)
    ensures NamesFrom(b, InsertByName(x, xs))
  {
    if |xs| > 0 && !LexLe(x.hospitalName, xs[0].hospitalName) {
      InsertByNameKeepsBound(b, x, xs[1..]);
      var rest := InsertByName(x, xs[1..]);
      var r := [xs[0]] + rest;
      assert forall k :: 0 < k < |r| ==> r[k] == rest[k - 1];
    }
  }

  lemma {:induction false} InsertByNameSorted(x: Hospital, xs: seq<Hospital>)
    requires SortedByName(xs)
    ensures SortedByName(InsertByName(x, xs))
  {
    if |xs| == 0 {
    } else if LexLe(x.hospitalName, xs[0].hospitalName) {
      var r := [x] + xs;
      forall i, j | 0 <= i < j < |r|
        ensures LexLe(r[i].hospitalName, r[j].hospitalName)
      {
        if i == 0 && j > 1 {
          LexLeTransitive(x.hospitalName, xs[0].hospitalName, xs[j - 1].hospitalName);
        }
      }
    } else {
      var rest := InsertByName(x, xs[1..]);
      InsertByNameSorted(x, xs[1..]);
      LexLeTotal(x.hospitalName, xs[0].hospitalName);
      assert NamesFrom(xs[0].hospitalName, xs[1..]) by {
        forall k | 0 <= k < |xs[1..]|
          ensures LexLe(xs[0].hospitalName, xs[1..][k].hospitalName)
        {
          assert xs[1..][k] == xs[k + 1];
        }
      }
      InsertByNameKeepsBound(xs[0].hospitalName, x, xs[1..]);
      var r := [xs[0]] + rest;
      forall i, j | 0 <= i < j < |r|
        ensures LexLe(r[i].hospitalName, r[j].hospitalName)
      {
        assert r[j] == rest[j - 1];
        if i > 0 {
          assert r[i] == rest[i - 1];
        }
      }
    }
  }

  /** `ORDER BY hospital_name`. SQL leaves the order of equal names open, so
      nothing beyond sortedness and being a permutation is promised. */
  function SortByName(xs: seq<Hospital>): (r: seq<Hospital>)
    ensures SortedByName(r)
    ensures multiset(r) == multiset(xs)
  {
    if |xs| == 0 then []
    else
      var rest := SortByName(xs[1..]);
      InsertByNameSorted(xs[0], rest);
      InsertByNamePermutes(xs[0], rest);
      assert xs == [xs[0]] + xs[1..];
      InsertByName(xs[0], rest)
  }

  /** Permutations have the same members. */
  lemma SameMembers<T>(a: seq<T>, b: seq<T>)
    requires multiset(a) == multiset(b)
    ensures forall x :: x in a <==> x in b
  {
    forall x
      ensures x in a <==> x in b
    {
      assert x in a <==> x in multiset(a);
      assert x in b <==> x in multiset(b);
    }
  }

  // ---------------------------------------------------------------------------
  // find_all and search
  // ---------------------------------------------------------------------------

  /** One WHERE condition that `search` may append. */
  datatype Condition =
    | ActiveIsOne
    | IdEquals(id: int)
    | NameLike(fragment: string)
    | CityLike(fragment: string)

  /** `LIKE '%x%'` is an ASCII case-insensitive substring test. */
  predicate Satisfies(row: Row, c: Condition) {
    match c
    case ActiveIsOne => row.cols.isActive == 1
    case IdEquals(id) => row.id == id
    case NameLike(x) => ContainsIgnoreCase(row.cols.hospitalName, x)
    case CityLike(x) => ContainsIgnoreCase(row.cols.city, x)
  }

  /** The conditions joined with AND; an empty list is no WHERE clause. */
  predicate SatisfiesAll(row: Row, cs: seq<Condition>) {
    forall k :: 0 <= k < |cs| ==> Satisfies(row, cs[k])
  }

  /** The rows a SELECT with these conditions returns, in storage order. */
  function Select(rows: seq<Row>, cs: seq<Condition>): (r: seq<Hospital>)
    ensures |r| <= |rows|
    ensures forall x :: x in r <==> exists i :: 0 <= i < |rows| && SatisfiesAll(rows[i], cs) && x == FromRow(rows[i])
    ensures DistinctRowIds(rows) ==> DistinctIds(r)
  {
    if |rows| == 0 then []
    else
      var rest := Select(rows[1..], cs);
      assert forall i :: 0 < i < |rows| ==> rows[i] == rows[1..][i - 1];
      if SatisfiesAll(rows[0], cs) then
        var r := [FromRow(rows[0])] + rest;
        assert DistinctRowIds(rows) ==> DistinctIds(r) by {
          if DistinctRowIds(rows) {
            assert DistinctRowIds(rows[1..]);
            forall i, j | 0 <= i < j < |r|
              ensures r[i].id != r[j].id
            {
              if i == 0 {
                assert r[j] in rest;
              } else {
                assert r[i] == rest[i - 1] && r[j] == rest[j - 1];
              }
            }
          }
        }
        r
      else
        assert DistinctRowIds(rows) ==> DistinctRowIds(rows[1..]);
        rest
  }

  /** No two rows share a key. */
  predicate DistinctRowIds(rows: seq<Row>) {
    forall i, j :: 0 <= i < j < |rows| ==> rows[i].id != rows[j].id
  }

  /** No two records share an id, so none is listed twice. */
  predicate DistinctIds(xs: seq<Hospital>) {
    forall i, j :: 0 <= i < j < |xs| ==> xs[i].id != xs[j].id
  }

  /** A record occurs at most once in a list whose ids are distinct. */
  lemma {:induction false} DistinctCount(xs: seq<Hospital>, x: Hospital)
    requires DistinctIds(xs)
    ensures multiset(xs)[x] <= 1
  {
    if |xs| > 0 {
      assert xs == [xs[0]] + xs[1..];
      assert DistinctIds(xs[1..]) by {
        forall i, j | 0 <= i < j < |xs[1..]|
          ensures xs[1..][i].id != xs[1..][j].id
        {
          assert xs[1..][i] == xs[i + 1] && xs[1..][j] == xs[j + 1];
        }
      }
      DistinctCount(xs[1..], x);
      if xs[0] == x {
        assert x !in xs[1..] by {
          forall k | 0 <= k < |xs[1..]|
            ensures xs[1..][k] != x
          {
            assert xs[1..][k] == xs[k + 1];
          }
        }
      }
    }
  }

  /** A record listed at two positions occurs at least twice. */
  lemma TwiceListed(xs: seq<Hospital>, i: int, j: int)
    requires 0 <= i < j < |xs| && xs[i] == xs[j]
    ensures multiset(xs)[xs[i]] >= 2
  {
    var x := xs[i];
    assert xs == xs[..j] + [x] + xs[j + 1..];
    assert x in xs[..j];
  }

  /** Reordering a list keeps its ids distinct. */
  lemma DistinctIdsPermuted(a: seq<Hospital>, b: seq<Hospital>)
    requires multiset(a) == multiset(b)
    ensures DistinctIds(a) ==> DistinctIds(b)
  {
    forall i, j | 0 <= i < j < |b| && DistinctIds(a)
      ensures b[i].id != b[j].id
    {
      if b[i].id == b[j].id {
        assert b[i] in multiset(a) && b[j] in multiset(a);
        var p :| 0 <= p < |a| && a[p] == b[i];
        var q :| 0 <= q < |a| && a[q] == b[j];
        assert p == q;
        TwiceListed(b, i, j);
        DistinctCount(a, b[i]);
      }
    }
  }

  /** `find_all(active_only)`. */
  function FindAll(t: Table, activeOnly: bool): (r: seq<Hospital>)
    ensures SortedByName(r)
    ensures forall x :: x in r <==> exists i :: 0 <= i < |t.rows| && (!activeOnly || t.rows[i].cols.isActive == 1)
                                                && x == FromRow(t.rows[i])
    ensures !activeOnly ==> |r| == |t.rows|
    ensures multiset(r) == multiset(Select(t.rows, Conditions(Query(None, None, None, activeOnly))))
    ensures Wf(t) ==> DistinctIds(r)
  {
    var cs := if activeOnly then [ActiveIsOne] else [];
    var selected := Select(t.rows, cs);
    var r := SortByName(selected);
    SameMembers(r, selected);
    assert cs == Conditions(Query(None, None, None, activeOnly));
    SelectMatches(t.rows, Query(None, None, None, activeOnly));
    SelectAllLength(t.rows);
    assert |r| == |multiset(r)| == |multiset(selected)| == |selected|;
    DistinctIdsPermuted(selected, r);
    r
  }

  lemma {:induction false} SelectAllLength(rows: seq<Row>)
    ensures |Select(rows, [])| == |rows|
  {
    if |rows| > 0 {
      SelectAllLength(rows[1..]);
    }
  }

  /** The optional arguments of `search`. */
  datatype Query = Query(name: Option<string>, hospitalId: Option<int>, city: Option<string>, activeOnly: bool)

  /** Python truthiness of an optional string: None and "" both impose nothing. */
  predicate Given(s: Option<string>) {
    s.Some? && s.value != ""
  }

  /** The conditions `search` builds, in the order it appends them. */
  function Conditions(q: Query): seq<Condition> {
    (if q.activeOnly then [ActiveIsOne] else [])
    + (if q.hospitalId.Some? then [IdEquals(q.hospitalId.value)] else [])
    + (if Given(q.name) then [NameLike(q.name.value)] else [])
    + (if Given(q.city) then [CityLike(q.city.value)] else [])
  }

  /** What a row must satisfy to be found, criterion by criterion. */
  predicate Matches(row: Row, q: Query) {
    && (q.activeOnly ==> row.cols.isActive == 1)
    && (q.hospitalId.Some? ==> row.id == q.hospitalId.value)
    && (Given(q.name) ==> ContainsIgnoreCase(row.cols.hospitalName, q.name.value))
    && (Given(q.city) ==> ContainsIgnoreCase(row.cols.city, q.city.value))
  }

  /** The AND-joined condition list selects exactly the matching rows. */
  lemma ConditionsMeanMatches(row: Row, q: Query)
    ensures SatisfiesAll(row, Conditions(q)) <==> Matches(row, q)
  {
    var a := if q.activeOnly then [ActiveIsOne] else [];
    var b := if q.hospitalId.Some? then [IdEquals(q.hospitalId.value)] else [];
    var c := if Given(q.name) then [NameLike(q.name.value)] else [];
    var d := if Given(q.city) then [CityLike(q.city.value)] else [];
    var cs := Conditions(q);
    assert cs == a + b + c + d;
    if Matches(row, q) {
      forall k | 0 <= k < |cs|
        ensures Satisfies(row, cs[k])
      {
        if k < |a| {
          assert cs[k] == ActiveIsOne;
        } else if k < |a| + |b| {
          assert cs[k] == b[0];
        } else if k < |a| + |b| + |c| {
          assert cs[k] == c[0];
        } else {
          assert cs[k] == d[0];
        }
      }
    }
    if SatisfiesAll(row, cs) {
      if q.activeOnly { assert Satisfies(row, cs[0]); }
      if q.hospitalId.Some? { assert Satisfies(row, cs[|a|]); }
      if Given(q.name) { assert Satisfies(row, cs[|a| + |b|]); }
      if Given(q.city) { assert Satisfies(row, cs[|a| + |b| + |c|]); }
    }
  }

  /** `search`: a conjunctive filter sorted by name. */
  function Search(t: Table, q: Query): (r: seq<Hospital>)
    ensures SortedByName(r)
    ensures forall x :: x in r <==> exists i :: 0 <= i < |t.rows| && Matches(t.rows[i], q) && x == FromRow(t.rows[i])
    ensures multiset(r) == multiset(Select(t.rows, Conditions(q)))
    ensures Wf(t) ==> DistinctIds(r)
  {
    var selected := Select(t.rows, Conditions(q));
    var r := SortByName(selected);
    SelectMatches(t.rows, q);
    SameMembers(r, selected);
    DistinctIdsPermuted(selected, r);
    r
  }

  lemma SelectMatches(rows: seq<Row>, q: Query)
    ensures forall x :: x in Select(rows, Conditions(q)) <==> exists i :: 0 <= i < |rows| && Matches(rows[i], q) && x == FromRow(rows[i])
  {
    forall i | 0 <= i < |rows|
      ensures SatisfiesAll(rows[i], Conditions(q)) <==> Matches(rows[i], q)
    {
      ConditionsMeanMatches(rows[i], q);
    }
  }

  /** `find_all` is `search` without name, id or city. */
  lemma FindAllIsUnfilteredSearch(t: Table, activeOnly: bool)
    ensures FindAll(t, activeOnly) == Search(t, Query(None, None, None, activeOnly))
  {
    assert Conditions(Query(None, None, None, activeOnly)) == if activeOnly then [ActiveIsOne] else [];
  }

  /** `search(city="del")` finds both "Delhi" and "New Delhi". */
  lemma CitySearchIgnoresCase(t: Table, i: int, j: int)
    requires 0 <= i < |t.rows| && 0 <= j < |t.rows|
    requires t.rows[i].cols.city == "Delhi" && t.rows[j].cols.city == "New Delhi"
    ensures FromRow(t.rows[i]) in Search(t, Query(None, None, Some("del"), false))
    ensures FromRow(t.rows[j]) in Search(t, Query(None, None, Some("del"), false))
  {
    assert OccursAt(Lower("Delhi"), Lower("del"), 0);
    assert OccursAt(Lower("New Delhi"), Lower("del"), 4);
  }

  // ---------------------------------------------------------------------------
  // Writes
  // ---------------------------------------------------------------------------

  /** An SQLite INTEGER is a signed 64-bit value. */
  const MinInteger: int := -0x8000_0000_0000_0000
  const MaxInteger: int := 0x7FFF_FFFF_FFFF_FFFF

  predicate FitsInteger(x: int) {
    MinInteger <= x <= MaxInteger
  }

  /** What Python's sqlite3 module raises when an int parameter lies outside
      the INTEGER range; it does so while binding, before the statement runs. */
  const TooLargeForInteger := "Python int too large to convert to SQLite INTEGER"

  /** Every integer column of `cols` can be bound as an SQLite INTEGER. */
  predicate Bindable(cols: Columns) {
    && FitsInteger(cols.totalBeds)
    && FitsInteger(cols.icuBeds)
    && FitsInteger(cols.operationTheaters)
    && FitsInteger(cols.establishedYear)
    && FitsInteger(cols.isActive)
  }

  /** No row other than `excludeId` holds either unique key of `cols`, and the
      CHECK constraint holds: the columns may be stored. */
  predicate Admissible(rows: seq<Row>, cols: Columns, excludeId: Option<int>) {
    && cols.totalBeds > 0
    && forall i, k :: 0 <= i < |rows| && NotExcluded(rows[i], excludeId) ==> KeyOf(rows[i].cols, k) != KeyOf(cols, k)
  }

  /** The constraint `cols` would violate, if any. SQLite checks the CHECK
      constraint before the unique indexes. Which index it names when both keys
      clash is not fixed by the schema; the registration number is named here. */
  function ConstraintViolation(rows: seq<Row>, cols: Columns, excludeId: Option<int>): (e: Option<string>)
    ensures e.None? <==> Admissible(rows, cols, excludeId)
  {
    if cols.totalBeds <= 0 then Some("CHECK constraint failed: total_beds > 0")
    else if ExistsKey(rows, RegistrationNumber, cols.registrationNumber, excludeId) then
      assert !Admissible(rows, cols, excludeId) by {
        var i :| 0 <= i < |rows| && KeyOf(rows[i].cols, RegistrationNumber) == cols.registrationNumber
                 && NotExcluded(rows[i], excludeId);
        assert KeyOf(rows[i].cols, RegistrationNumber) == KeyOf(cols, RegistrationNumber);
      }
      Some(UniqueFailed + KeyColumnName(RegistrationNumber))
    else if ExistsKey(rows, LicenseNumber, cols.licenseNumber, excludeId) then
      assert !Admissible(rows, cols, excludeId) by {
        var i :| 0 <= i < |rows| && KeyOf(rows[i].cols, LicenseNumber) == cols.licenseNumber
                 && NotExcluded(rows[i], excludeId);
        assert KeyOf(rows[i].cols, LicenseNumber) == KeyOf(cols, LicenseNumber);
      }
      Some(UniqueFailed + KeyColumnName(LicenseNumber))
    else
      NoKeyMeansAdmissible(rows, cols, excludeId);
      None
  }

  lemma NoKeyMeansAdmissible(rows: seq<Row>, cols: Columns, excludeId: Option<int>)
    requires cols.totalBeds > 0
    requires !ExistsKey(rows, RegistrationNumber, cols.registrationNumber, excludeId)
    requires !ExistsKey(rows, LicenseNumber, cols.licenseNumber, excludeId)
    ensures Admissible(rows, cols, excludeId)
  {
    forall i, k | 0 <= i < |rows| && NotExcluded(rows[i], excludeId)
      ensures KeyOf(rows[i].cols, k) != KeyOf(cols, k)
    {
      if k == RegistrationNumber {
        assert KeyOf(rows[i].cols, k) == rows[i].cols.registrationNumber;
      } else {
        assert KeyOf(rows[i].cols, k) == rows[i].cols.licenseNumber;
      }
    }
  }

  /** The largest of `floor` and every row id. */
  function MaxId(rows: seq<Row>, floor: int): (m: int)
    ensures m >= floor
    ensures forall i :: 0 <= i < |rows| ==> rows[i].id <= m
  {
    if |rows| == 0 then floor
    else
      var m := MaxId(rows[1..], if rows[0].id > floor then rows[0].id else floor);
      assert forall i :: 0 < i < |rows| ==> rows[i] == rows[1..][i - 1];
      m
  }

  /** The AUTOINCREMENT key of the next insert: one past both the counter and
      every key in the table. */
  function NextId(t: Table): (id: nat)
    ensures id > t.sequence
    ensures forall i :: 0 <= i < |t.rows| ==> t.rows[i].id < id
  {
    MaxId(t.rows, t.sequence) + 1
  }

  /** `add`: insert the columns of `h` under a fresh key with both timestamps set
      to `now`, and return `h` with its id set. An integer outside the INTEGER
      range fails while binding; a violated constraint raises; either way
      nothing is stored. The INSERT names no `:id`, so a preset id is not bound. */
  function Add(t: Table, h: Hospital, now: string): (r: Result<(Table, Hospital), RepoError>)
    ensures r.Ok? <==> Bindable(ToParams(h).cols) && Admissible(t.rows, ToParams(h).cols, None)
    ensures !Bindable(ToParams(h).cols) ==> r == Err(OverflowError(TooLargeForInteger))
    ensures Bindable(ToParams(h).cols) && r.Err? ==>
      r.error == IntegrityError(ConstraintViolation(t.rows, ToParams(h).cols, None).value)
    ensures r.Ok? ==> var (t', saved) := r.value;
      && saved == h.(id := Some(NextId(t)))
      && (forall i :: 0 <= i < |t.rows| ==> t.rows[i].id < saved.id.value)
      && t'.rows == t.rows + [Row(saved.id.value, ToParams(h).cols, now, now)]
      && t'.sequence == saved.id.value
  {
    var cols := ToParams(h).cols;
    var violation := ConstraintViolation(t.rows, cols, None);
    if !Bindable(cols) then Err(OverflowError(TooLargeForInteger))
    else if violation.Some? then Err(IntegrityError(violation.value))
    else
      var id := NextId(t);
      Ok((Table(t.rows + [Row(id, cols, now, now)], id), h.(id := Some(id))))
  }

  /** The rows after `UPDATE ... WHERE id = :id`, followed by the
      `trg_hospital_updated_at` trigger, which stamps `updated_at` on each row
      the update touched. */
  function Overwrite(rows: seq<Row>, id: int, cols: Columns, now: string): (r: seq<Row>)
    ensures |r| == |rows|
    ensures forall i :: 0 <= i < |rows| ==> r[i] == if rows[i].id == id then rows[i].(cols := cols, updatedAt := now) else rows[i]
  {
    seq(|rows|, i requires 0 <= i < |rows| => if rows[i].id == id then rows[i].(cols := cols, updatedAt := now) else rows[i])
  }

  /** The UPDATE binds the id as well as the columns. */
  predicate UpdateBindable(h: Hospital) {
    h.id.Some? && FitsInteger(h.id.value) && Bindable(ToParams(h).cols)
  }

  /** `update`: without an id it raises `ValueError`; an integer outside the
      INTEGER range fails while binding; otherwise it overwrites the 24 data
      columns of the row with that id, keeping its key and creation time, and
      the trigger sets its `updated_at` to `now`; a missing id changes nothing.
      A violated constraint raises and stores nothing. */
  function Update(t: Table, h: Hospital, now: string): (r: Result<Table, RepoError>)
    ensures h.id.None? ==> r.Err? && r.error.ValueError?
    ensures h.id.Some? && !UpdateBindable(h) ==> r == Err(OverflowError(TooLargeForInteger))
    ensures UpdateBindable(h) && (forall i :: 0 <= i < |t.rows| ==> t.rows[i].id != h.id.value) ==> r == Ok(t)
    ensures r.Ok? && h.id.Some? ==>
      && r.value.sequence == t.sequence
      && |r.value.rows| == |t.rows|
      && forall i :: 0 <= i < |t.rows| ==>
           r.value.rows[i] == if t.rows[i].id == h.id.value then t.rows[i].(cols := ToParams(h).cols, updatedAt := now) else t.rows[i]
    ensures r.Err? && UpdateBindable(h) ==> !Admissible(t.rows, ToParams(h).cols, h.id)
    ensures h.id.Some? && (exists i :: 0 <= i < |t.rows| && t.rows[i].id == h.id.value) ==>
      (r.Ok? <==> UpdateBindable(h) && Admissible(t.rows, ToParams(h).cols, h.id))
  {
    if h.id.None? then Err(ValueError("Cannot update a Hospital without an id."))
    else
      var id := h.id.value;
      var cols := ToParams(h).cols;
      if !UpdateBindable(h) then Err(OverflowError(TooLargeForInteger))
      else if FirstWhere(t.rows, (row: Row) => row.id == id).None? then Ok(t)
      else
        var violation := ConstraintViolation(t.rows, cols, h.id);
        if violation.Some? then Err(IntegrityError(violation.value))
        else Ok(t.(rows := Overwrite(t.rows, id, cols, now)))
  }

  // ---------------------------------------------------------------------------
  // Invariants of the writes
  // ---------------------------------------------------------------------------

  lemma AddPreservesWf(t: Table, h: Hospital, now: string)
    requires Wf(t)
    ensures Add(t, h, now).Ok? ==> Wf(Add(t, h, now).value.0)
  {
    var r := Add(t, h, now);
    if r.Ok? {
      var t' := r.value.0;
      var n := |t.rows|;
      assert forall i :: 0 <= i < n ==> t'.rows[i] == t.rows[i];
      assert forall k :: KeyOf(t'.rows[n].cols, k) == KeyOf(ToParams(h).cols, k);
    }
  }

  lemma UpdatePreservesWf(t: Table, h: Hospital, now: string)
    requires Wf(t)
    ensures Update(t, h, now).Ok? ==> Wf(Update(t, h, now).value)
  {
    var r := Update(t, h, now);
    if r.Ok? && h.id.Some? && r.value != t {
      var cols := ToParams(h).cols;
      var t' := r.value;
      assert Admissible(t.rows, cols, h.id);
      forall i, j, k | 0 <= i < j < |t'.rows|
        ensures KeyOf(t'.rows[i].cols, k) != KeyOf(t'.rows[j].cols, k)
      {
        if t.rows[i].id == h.id.value {
          assert t.rows[j].id != h.id.value;
          assert NotExcluded(t.rows[j], h.id);
        } else if t.rows[j].id == h.id.value {
          assert NotExcluded(t.rows[i], h.id);
        }
      }
    }
  }

  /** After a successful add, looking up the new key gives back the same record. */
  lemma AddThenFind(t: Table, h: Hospital, now: string)
    requires Add(t, h, now).Ok?
    ensures var (t', saved) := Add(t, h, now).value;
      && FindById(t', saved.id.value) == Some(saved.(createdAt := Some(now), updatedAt := Some(now)))
      && SameRecord(FindById(t', saved.id.value).value, h)
  {
    var (t', saved) := Add(t, h, now).value;
    var id := saved.id.value;
    var n := |t.rows|;
    assert t'.rows[n].id == id;
    RowRoundTrip(h, id, now, now);
  }

  /** After a successful update of an existing row, looking it up gives back the
      written record with the row's original creation time and `now` as its
      update time. */
  lemma UpdateThenFind(t: Table, h: Hospital, i: int, now: string)
    requires Wf(t) && 0 <= i < |t.rows| && h.id == Some(t.rows[i].id)
    requires Update(t, h, now).Ok?
    ensures FindById(Update(t, h, now).value, t.rows[i].id)
         == Some(h.(createdAt := Some(t.rows[i].createdAt), updatedAt := Some(now)))
  {
    var t' := Update(t, h, now).value;
    UpdatePreservesWf(t, h, now);
    FindByIdExact(t', i);
    RowRoundTrip(h, t.rows[i].id, t.rows[i].createdAt, now);
  }
}

=== FILE: schema.dfy ===
/** The schema migrator (SchemaManager.migrate): an append-only list of
    versioned migrations and a ledger of the versions already applied.
    DDL statements are opaque; whether each one succeeds is a parameter. */
module Schema {
  import opened Common

  /** One DDL statement; only its identity matters to the migrator. */
  datatype Statement = Statement(name: string)

  datatype Migration = Migration(version: int, description: string, statements: seq<Statement>)

  /** A row of `schema_version`; the applied-at timestamp is not modelled. */
  datatype LedgerRow = LedgerRow(version: int, description: string)

  /** What the migrator can observe of the database: the ledger and the DDL
      in effect so far, in the order it ran. */
  datatype Db = Db(ledger: seq<LedgerRow>, applied: seq<Statement>)

  const EmptyDb: Db := Db([], [])

  const CreateSchemaVersion := Statement("SQL_CREATE_SCHEMA_VERSION")
  const CreateHospitals := Statement("SQL_CREATE_HOSPITALS")
  const CreateHospitalUpdatedTrigger := Statement("SQL_CREATE_HOSPITAL_UPDATED_TRIGGER")
  const CreateHospitalsIdxReg := Statement("SQL_CREATE_HOSPITALS_IDX_REG")
  const CreateHospitalsIdxLicense := Statement("SQL_CREATE_HOSPITALS_IDX_LICENSE")

  /** `MIGRATIONS`: at present one migration creating the hospitals table. */
  const Migrations: seq<Migration> := [
    Migration(1, "Initial schema \U{2013} hospitals table", [
      CreateSchemaVersion, CreateHospitals, CreateHospitalUpdatedTrigger,
      CreateHospitalsIdxReg, CreateHospitalsIdxLicense])
  ]

  /** Why a migration step was rolled back: a statement failed, or the ledger
      insert hit the primary key because the version is already recorded. */
  datatype Cause = StatementFailed(statement: Statement) | VersionAlreadyRecorded

  /** The `RuntimeError` raised by `migrate`. */
  datatype MigrationError = MigrationError(version: int, cause: Cause)

  /** The end of one migration step: committed, or rolled back. Either way
      `db` is the database afterwards. */
  datatype Step = Committed(db: Db) | RolledBack(cause: Cause, db: Db)

  /** The end of a `migrate` call: the database afterwards, and whether the
      call returned or raised. */
  datatype Outcome = Migrated(db: Db) | Failed(error: MigrationError, db: Db)

  // ---------------------------------------------------------------------------
  // The ledger
  // ---------------------------------------------------------------------------

  /** `SELECT COALESCE(MAX(version), 0)`. */
  function CurrentVersion(ledger: seq<LedgerRow>): (v: int)
    ensures |ledger| == 0 ==> v == 0
    ensures forall i :: 0 <= i < |ledger| ==> ledger[i].version <= v
    ensures |ledger| > 0 ==> exists i :: 0 <= i < |ledger| && ledger[i].version == v
  {
    if |ledger| == 0 then 0
    else if |ledger| == 1 then ledger[0].version
    else
      var m := CurrentVersion(ledger[1..]);
      assert forall i :: 0 < i < |ledger| ==> ledger[i] == ledger[1..][i - 1];
      if ledger[0].version > m then ledger[0].version else m
  }

  predicate Recorded(ledger: seq<LedgerRow>, version: int) {
    exists i :: 0 <= i < |ledger| && ledger[i].version == version
  }

  /** The ledger rows a list of migrations appends, in order. */
  function RowsOf(ms: seq<Migration>): (r: seq<LedgerRow>)
    ensures |r| == |ms|
    ensures forall i :: 0 <= i < |ms| ==> r[i] == LedgerRow(ms[i].version, ms[i].description)
  {
    if |ms| == 0 then [] else [LedgerRow(ms[0].version, ms[0].description)] + RowsOf(ms[1..])
  }

  /** The statements a list of migrations executes, in order. */
  function StatementsOf(ms: seq<Migration>): seq<Statement> {
    if |ms| == 0 then [] else ms[0].statements + StatementsOf(ms[1..])
  }

  // ---------------------------------------------------------------------------
  // One migration step: all statements, then the ledger row, then commit
  // ---------------------------------------------------------------------------

  /** The position of the first statement that fails, or the number of
      statements when all succeed. */
  function FirstFailing(statements: seq<Statement>, ok: Statement -> bool): (k: nat)
    ensures k <= |statements|
    ensures forall i :: 0 <= i < k ==> ok(statements[i])
    ensures k < |statements| ==> !ok(statements[k])
  {
    if |statements| == 0 || !ok(statements[0]) then 0
    else
      var k := FirstFailing(statements[1..], ok);
      assert forall i :: 0 < i <= k ==> statements[i] == statements[1..][i - 1];
      k + 1
  }

  /** The statements of `m` that run and succeed before the first failure. */
  function Ran(m: Migration, ok: Statement -> bool): seq<Statement> {
    m.statements[..FirstFailing(m.statements, ok)]
  }

  /** Executing one migration. The connection opens a transaction only for the
      ledger INSERT; each DDL statement before it runs in autocommit mode. A
      rollback therefore undoes the ledger row alone, and the statements that
      ran before a failure stay in effect. */
  function ApplyStep(db: Db, m: Migration, ok: Statement -> bool): (r: Step)
    ensures r.Committed? <==> (forall i :: 0 <= i < |m.statements| ==> ok(m.statements[i])) && !Recorded(db.ledger, m.version)
    ensures r.Committed? ==> r.db == Db(db.ledger + [LedgerRow(m.version, m.description)], db.applied + m.statements)
    ensures r.RolledBack? ==> r.db == Db(db.ledger, db.applied + Ran(m, ok))
    ensures r.RolledBack? ==>
      if Ran(m, ok) == m.statements then r.cause == VersionAlreadyRecorded
      else r.cause == StatementFailed(m.statements[|Ran(m, ok)|])
  {
    var k := FirstFailing(m.statements, ok);
    var ran := Db(db.ledger, db.applied + m.statements[..k]);
    if k < |m.statements| then
      assert |Ran(m, ok)| == k < |m.statements|;
      RolledBack(StatementFailed(m.statements[k]), ran)
    else if Recorded(db.ledger, m.version) then
      assert m.statements[..k] == m.statements;
      RolledBack(VersionAlreadyRecorded, ran)
    else
      assert m.statements[..k] == m.statements;
      Committed(Db(db.ledger + [LedgerRow(m.version, m.description)], db.applied + m.statements))
  }

  // ---------------------------------------------------------------------------
  // migrate()
  // ---------------------------------------------------------------------------

  /** The loop of `migrate`: skip every migration at or below the version read
      at the start, apply the others in list order, stop at the first failure
      with the earlier steps committed and the failed step's leftovers kept. */
  function MigrateFrom(ms: seq<Migration>, current: int, db: Db, ok: Statement -> bool): Outcome {
    if |ms| == 0 then Migrated(db)
    else if ms[0].version <= current then MigrateFrom(ms[1..], current, db, ok)
    else match ApplyStep(db, ms[0], ok)
      case RolledBack(cause, db') => Failed(MigrationError(ms[0].version, cause), db')
      case Committed(db') => MigrateFrom(ms[1..], current, db', ok)
  }

  /** `migrate`: read the current version once, then run the loop. It amounts
      to applying, in list order, exactly the migrations newer than that version. */
  function Migrate(ms: seq<Migration>, db: Db, ok: Statement -> bool): (r: Outcome)
    ensures r == ApplyAll(PendingFor(ms, db), db, ok)
  {
    MigrateFromIsApplyPending(ms, CurrentVersion(db.ledger), db, ok);
    MigrateFrom(ms, CurrentVersion(db.ledger), db, ok)
  }

  /** The migrations newer than `current`, in list order. */
  function Pending(ms: seq<Migration>, current: int): (p: seq<Migration>)
    ensures forall i :: 0 <= i < |p| ==> p[i].version > current
    ensures forall i :: 0 <= i < |ms| && ms[i].version > current ==> ms[i] in p
    ensures forall m :: m in p ==> m in ms
  {
    if |ms| == 0 then []
    else
      var rest := Pending(ms[1..], current);
      assert forall i :: 0 < i < |ms| ==> ms[i] == ms[1..][i - 1];
      if ms[0].version > current then [ms[0]] + rest else rest
  }

  /** One step of `Pending`: the head is kept exactly when it is newer. */
  lemma PendingCons(m: Migration, rest: seq<Migration>, current: int)
    ensures Pending([m] + rest, current) == (if m.version > current then [m] else []) + Pending(rest, current)
  {
    assert ([m] + rest)[1..] == rest;
  }

  /**
   * `Pending` keeps list order and each occurrence once: it distributes over
   * concatenation, and on one migration it keeps it exactly when it is newer.
   * Together these fix the result for every list.
   */
  lemma {:induction false} PendingAppend(a: seq<Migration>, b: seq<Migration>, current: int)
    ensures Pending(a + b, current) == Pending(a, current) + Pending(b, current)
    ensures |a| == 1 ==> Pending(a, current) == if a[0].version > current then a else []
    decreases |a|
  {
    if |a| == 0 {
      assert a + b == b;
    } else {
      var m, a' := a[0], a[1..];
      SplitHead(a, b);
      PendingCons(m, a' + b, current);
      PendingCons(m, a', current);
      PendingAppend(a', b, current);
      AppendRegroup(if m.version > current then [m] else [], Pending(a', current), Pending(b, current));
      if |a| == 1 {
        assert a' == [];
      }
    }
  }

  /** The migrations `migrate` will try on `db`. */
  function PendingFor(ms: seq<Migration>, db: Db): seq<Migration> {
    Pending(ms, CurrentVersion(db.ledger))
  }

  /** Applying a list of steps one after another, aborting at the first failure. */
  function ApplyAll(ps: seq<Migration>, db: Db, ok: Statement -> bool): Outcome {
    if |ps| == 0 then Migrated(db)
    else match ApplyStep(db, ps[0], ok)
      case RolledBack(cause, db') => Failed(MigrationError(ps[0].version, cause), db')
      case Committed(db') => ApplyAll(ps[1..], db', ok)
  }

  /** The skipping loop is the same as applying the pending list. */
  lemma {:induction false} MigrateFromIsApplyPending(ms: seq<Migration>, current: int, db: Db, ok: Statement -> bool)
    ensures MigrateFrom(ms, current, db, ok) == ApplyAll(Pending(ms, current), db, ok)
  {
    if |ms| > 0 {
      if ms[0].version <= current {
        MigrateFromIsApplyPending(ms[1..], current, db, ok);
      } else {
        var p := Pending(ms, current);
        assert p == [ms[0]] + Pending(ms[1..], current);
        assert p[1..] == Pending(ms[1..], current);
        match ApplyStep(db, ms[0], ok)
        case RolledBack(_, _) =>
        case Committed(db') => MigrateFromIsApplyPending(ms[1..], current, db', ok);
      }
    }
  }

  /** How many leading steps of `ps` commit before the first failure. */
  function CommittedSteps(ps: seq<Migration>, db: Db, ok: Statement -> bool): (n: nat)
    ensures n <= |ps|
  {
    if |ps| == 0 then 0
    else match ApplyStep(db, ps[0], ok)
      case RolledBack(_, _) => 0
      case Committed(db') => 1 + CommittedSteps(ps[1..], db', ok)
  }

  /** When the first step commits, what the first `n` steps add to the
      database is that step followed by what the next `n - 1` add to its result. */
  lemma CommittedShift(ps: seq<Migration>, db: Db, ok: Statement -> bool)
    requires |ps| > 0 && ApplyStep(db, ps[0], ok).Committed?
    ensures var db' := ApplyStep(db, ps[0], ok).db;
      var n := CommittedSteps(ps, db, ok);
      && n == CommittedSteps(ps[1..], db', ok) + 1
      && ApplyAll(ps, db, ok) == ApplyAll(ps[1..], db', ok)
      && db.ledger + RowsOf(ps[..n]) == db'.ledger + RowsOf(ps[1..][..n - 1])
      && db.applied + StatementsOf(ps[..n]) == db'.applied + StatementsOf(ps[1..][..n - 1])
  {
    var db' := ApplyStep(db, ps[0], ok).db;
    var row := LedgerRow(ps[0].version, ps[0].description);
    assert db'.ledger == db.ledger + [row] && db'.applied == db.applied + ps[0].statements;
    var k := CommittedSteps(ps[1..], db', ok);
    PrefixShift(ps, k);
    AppendRegroup(db.ledger, [row], RowsOf(ps[1..][..k]));
    AppendRegroup(db.applied, ps[0].statements, StatementsOf(ps[1..][..k]));
  }

  lemma SplitHead<T>(a: seq<T>, b: seq<T>)
    requires |a| > 0
    ensures a == [a[0]] + a[1..]
    ensures a + b == [a[0]] + (a[1..] + b)
  {
  }

  lemma AppendRegroup<T>(a: seq<T>, x: seq<T>, rest: seq<T>)
    ensures a + (x + rest) == (a + x) + rest
  {
  }

  /** The ledger after `ApplyAll`: the rows of the first `n` steps appended. */
  lemma {:induction false} ApplyAllLedger(ps: seq<Migration>, db: Db, ok: Statement -> bool)
    ensures ApplyAll(ps, db, ok).db.ledger == db.ledger + RowsOf(ps[..CommittedSteps(ps, db, ok)])
  {
    if |ps| == 0 || ApplyStep(db, ps[0], ok).RolledBack? {
      assert ps[..0] == [];
    } else {
      var db' := ApplyStep(db, ps[0], ok).db;
      ApplyAllLedger(ps[1..], db', ok);
      CommittedShift(ps, db, ok);
    }
  }

  /** The statements of the step at position `n` that stay in effect after it
      fails; nothing when every step committed. */
  function LeftOver(ps: seq<Migration>, n: nat, ok: Statement -> bool): seq<Statement> {
    if n < |ps| then Ran(ps[n], ok) else []
  }

  /** The statements run by `ApplyAll`: those of the first `n` steps, then those
      of the failed step that ran before its failure. */
  lemma {:induction false} ApplyAllStatements(ps: seq<Migration>, db: Db, ok: Statement -> bool)
    ensures var n := CommittedSteps(ps, db, ok);
      ApplyAll(ps, db, ok).db.applied == db.applied + StatementsOf(ps[..n]) + LeftOver(ps, n, ok)
  {
    if |ps| == 0 || ApplyStep(db, ps[0], ok).RolledBack? {
      assert ps[..0] == [];
    } else {
      var db' := ApplyStep(db, ps[0], ok).db;
      ApplyAllStatements(ps[1..], db', ok);
      CommittedShift(ps, db, ok);
      var k := CommittedSteps(ps[1..], db', ok);
      assert LeftOver(ps[1..], k, ok) == LeftOver(ps, k + 1, ok) by {
        if k < |ps[1..]| {
          assert ps[1..][k] == ps[k + 1];
        }
      }
      AppendRegroup(db'.applied, StatementsOf(ps[1..][..k]), LeftOver(ps, k + 1, ok));
      AppendRegroup(db.applied, StatementsOf(ps[..k + 1]), LeftOver(ps, k + 1, ok));
    }
  }

  /** What `ApplyAll` leaves behind: the ledger rows of the first `n` steps, and
      their statements followed by the failed step's leftovers. */
  lemma ApplyAllCommits(ps: seq<Migration>, db: Db, ok: Statement -> bool)
    ensures var n := CommittedSteps(ps, db, ok);
      ApplyAll(ps, db, ok).db
        == Db(db.ledger + RowsOf(ps[..n]), db.applied + StatementsOf(ps[..n]) + LeftOver(ps, n, ok))
  {
    ApplyAllLedger(ps, db, ok);
    ApplyAllStatements(ps, db, ok);
  }

  /** `ApplyAll` fails exactly when some step was left uncommitted, and then the
      error names that step, which still cannot be applied to what was left. */
  lemma {:induction false} ApplyAllStops(ps: seq<Migration>, db: Db, ok: Statement -> bool)
    ensures ApplyAll(ps, db, ok).Failed? <==> CommittedSteps(ps, db, ok) < |ps|
    ensures var n := CommittedSteps(ps, db, ok);
      n < |ps| ==> (ApplyAll(ps, db, ok).error.version == ps[n].version
                    && ApplyStep(ApplyAll(ps, db, ok).db, ps[n], ok).RolledBack?)
  {
    if |ps| > 0 && ApplyStep(db, ps[0], ok).Committed? {
      var db' := ApplyStep(db, ps[0], ok).db;
      ApplyAllStops(ps[1..], db', ok);
      var k := CommittedSteps(ps[1..], db', ok);
      if k < |ps[1..]| {
        assert ps[k + 1] == ps[1..][k];
      }
    }
  }

  lemma PrefixShift(ps: seq<Migration>, k: int)
    requires 0 <= k < |ps|
    ensures RowsOf(ps[..k + 1]) == [LedgerRow(ps[0].version, ps[0].description)] + RowsOf(ps[1..][..k])
    ensures StatementsOf(ps[..k + 1]) == ps[0].statements + StatementsOf(ps[1..][..k])
  {
    assert ps[..k + 1][1..] == ps[1..][..k];
  }

  /** `migrate` commits the first `n` pending migrations in list order, where `n`
      counts the steps that succeed; it returns normally exactly when all pending
      migrations committed, and otherwise raises naming the next one, whose ledger
      row is absent but whose statements before the failure stay in effect. */
  lemma MigrateEffect(ms: seq<Migration>, db: Db, ok: Statement -> bool)
    ensures var p := PendingFor(ms, db);
      var n := CommittedSteps(p, db, ok);
      Migrate(ms, db, ok).db
        == Db(db.ledger + RowsOf(p[..n]), db.applied + StatementsOf(p[..n]) + LeftOver(p, n, ok))
    ensures var p := PendingFor(ms, db);
      Migrate(ms, db, ok).Migrated? <==> CommittedSteps(p, db, ok) == |p|
    ensures var p := PendingFor(ms, db);
      var n := CommittedSteps(p, db, ok);
      n < |p| ==> (Migrate(ms, db, ok).error.version == p[n].version
                   && ApplyStep(Migrate(ms, db, ok).db, p[n], ok).RolledBack?)
  {
    var p := PendingFor(ms, db);
    ApplyAllCommits(p, db, ok);
    ApplyAllStops(p, db, ok);
  }

  // ---------------------------------------------------------------------------
  // Idempotence
  // ---------------------------------------------------------------------------

  lemma {:induction false} NothingNewer(ms: seq<Migration>, current: int, db: Db, ok: Statement -> bool)
    requires forall i :: 0 <= i < |ms| ==> ms[i].version <= current
    ensures MigrateFrom(ms, current, db, ok) == Migrated(db)
  {
    if |ms| > 0 {
      NothingNewer(ms[1..], current, db, ok);
    }
  }

  /** Appending rows newer than the current version leaves the current version
      at least as high as every appended row. */
  lemma CurrentVersionAfterAppend(ledger: seq<LedgerRow>, rows: seq<LedgerRow>)
    requires forall i :: 0 <= i < |rows| ==> rows[i].version > CurrentVersion(ledger)
    ensures CurrentVersion(ledger + rows) >= CurrentVersion(ledger)
    ensures forall i :: 0 <= i < |rows| ==> rows[i].version <= CurrentVersion(ledger + rows)
  {
    var l := ledger + rows;
    assert forall i :: 0 <= i < |rows| ==> l[|ledger| + i] == rows[i];
    if |ledger| > 0 {
      var j :| 0 <= j < |ledger| && ledger[j].version == CurrentVersion(ledger);
      assert l[j] == ledger[j];
    } else if |rows| > 0 {
      assert l[0] == rows[0];
    }
  }

  /** A second `migrate` right after a successful one changes nothing. */
  lemma MigrateIdempotent(ms: seq<Migration>, db: Db, ok: Statement -> bool)
    requires Migrate(ms, db, ok).Migrated?
    ensures Migrate(ms, Migrate(ms, db, ok).db, ok) == Migrate(ms, db, ok)
  {
    var c := CurrentVersion(db.ledger);
    var p := Pending(ms, c);
    var db' := Migrate(ms, db, ok).db;
    MigrateEffect(ms, db, ok);
    assert p[..|p|] == p;
    var added := RowsOf(p);
    CurrentVersionAfterAppend(db.ledger, added);
    var c' := CurrentVersion(db'.ledger);
    forall i | 0 <= i < |ms|
      ensures ms[i].version <= c'
    {
      if ms[i].version > c {
        var j :| 0 <= j < |p| && p[j] == ms[i];
        assert added[j].version == ms[i].version;
      }
    }
    NothingNewer(ms, c', db', ok);
  }

  // ---------------------------------------------------------------------------
  // The shipped migration list
  // ---------------------------------------------------------------------------

  /** On an empty database whose statements all succeed, `migrate` records one
      ledger row per defined migration (version 1) and runs its five statements. */
  lemma FreshDatabase(ok: Statement -> bool)
    requires forall s :: ok(s)
    ensures Migrate(Migrations, EmptyDb, ok)
         == Migrated(Db([LedgerRow(1, Migrations[0].description)], Migrations[0].statements))
  {
    assert Pending(Migrations, 0) == Migrations;
    assert RowsOf(Migrations) == [LedgerRow(1, Migrations[0].description)];
    assert StatementsOf(Migrations) == Migrations[0].statements;
    MigrateEffect(Migrations, EmptyDb, ok);
  }

  /** If a statement of the first migration fails on an empty database, no
      version is recorded, the error names version 1 and that statement, and the
      statements before it stay in effect. */
  lemma FreshDatabaseFailure(ok: Statement -> bool, i: int)
    requires 0 <= i < |Migrations[0].statements| && !ok(Migrations[0].statements[i])
    ensures Migrate(Migrations, EmptyDb, ok).Failed?
    ensures Migrate(Migrations, EmptyDb, ok).db == Db([], Ran(Migrations[0], ok))
    ensures |Ran(Migrations[0], ok)| <= i
    ensures Migrate(Migrations, EmptyDb, ok).error
         == MigrationError(1, StatementFailed(Migrations[0].statements[|Ran(Migrations[0], ok)|]))
  {
    assert Pending(Migrations, 0) == Migrations;
    assert ApplyStep(EmptyDb, Migrations[0], ok).RolledBack?;
  }

  /** A failing trigger statement leaves the hospitals table and the ledger
      table created, with no version recorded. */
  lemma TriggerFailureKeepsTables(ok: Statement -> bool)
    requires ok(CreateSchemaVersion) && ok(CreateHospitals) && !ok(CreateHospitalUpdatedTrigger)
    ensures Migrate(Migrations, EmptyDb, ok).db == Db([], [CreateSchemaVersion, CreateHospitals])
  {
    FreshDatabaseFailure(ok, 2);
  }

  /** Versions strictly increase along a list. */
  predicate Ascending(versions: seq<int>) {
    forall i, j :: 0 <= i < j < |versions| ==> versions[i] < versions[j]
  }

  function LedgerVersions(ledger: seq<LedgerRow>): seq<int> {
    seq(|ledger|, i requires 0 <= i < |ledger| => ledger[i].version)
  }

  function MigrationVersions(ms: seq<Migration>): seq<int> {
    seq(|ms|, i requires 0 <= i < |ms| => ms[i].version)
  }

  lemma PendingAscending(ms: seq<Migration>, current: int)
    requires Ascending(MigrationVersions(ms))
    ensures Ascending(MigrationVersions(Pending(ms, current)))
    decreases |ms|
  {
    if |ms| > 0 {
      var rest := Pending(ms[1..], current);
      assert MigrationVersions(ms[1..]) == MigrationVersions(ms)[1..];
      PendingAscending(ms[1..], current);
      if ms[0].version > current {
        forall m | m in rest
          ensures ms[0].version < m.version
        {
          var j :| 0 <= j < |ms[1..]| && ms[1..][j] == m;
          assert MigrationVersions(ms)[0] < MigrationVersions(ms)[j + 1];
        }
        var p := [ms[0]] + rest;
        forall i, j | 0 <= i < j < |p|
          ensures p[i].version < p[j].version
        {
          assert p[j] == rest[j - 1] && p[j] in rest;
          if i > 0 {
            assert p[i] == rest[i - 1];
            assert MigrationVersions(rest)[i - 1] < MigrationVersions(rest)[j - 1];
          }
        }
      }
    }
  }

  /** Appending rows that are ascending and all newer than the ledger keeps the
      ledger ascending. */
  lemma AppendAscending(ledger: seq<LedgerRow>, rows: seq<LedgerRow>)
    requires Ascending(LedgerVersions(ledger)) && Ascending(LedgerVersions(rows))
    requires forall i :: 0 <= i < |rows| ==> rows[i].version > CurrentVersion(ledger)
    ensures Ascending(LedgerVersions(ledger + rows))
  {
    var l := ledger + rows;
    var m := |ledger|;
    forall i, j | 0 <= i < j < |l|
      ensures LedgerVersions(l)[i] < LedgerVersions(l)[j]
    {
      if j < m {
        assert l[i] == ledger[i] && l[j] == ledger[j];
        assert LedgerVersions(ledger)[i] < LedgerVersions(ledger)[j];
      } else if i < m {
        assert l[j] == rows[j - m] && l[i] == ledger[i];
      } else {
        assert l[j] == rows[j - m] && l[i] == rows[i - m];
        assert LedgerVersions(rows)[i - m] < LedgerVersions(rows)[j - m];
      }
    }
  }

  /** The ledger rows of an ascending prefix of migrations are ascending. */
  lemma RowsAscending(p: seq<Migration>, n: nat)
    requires n <= |p| && Ascending(MigrationVersions(p))
    ensures Ascending(LedgerVersions(RowsOf(p[..n])))
  {
    var r := RowsOf(p[..n]);
    forall i, j | 0 <= i < j < |r|
      ensures LedgerVersions(r)[i] < LedgerVersions(r)[j]
    {
      assert r[i].version == p[i].version && r[j].version == p[j].version;
      assert MigrationVersions(p)[i] < MigrationVersions(p)[j];
    }
  }

  /** With an ascending migration list, the ledger stays strictly ascending:
      versions are recorded in increasing order and never twice. */
  lemma MigrateKeepsLedgerAscending(ms: seq<Migration>, db: Db, ok: Statement -> bool)
    requires Ascending(MigrationVersions(ms))
    requires Ascending(LedgerVersions(db.ledger))
    ensures Ascending(LedgerVersions(Migrate(ms, db, ok).db.ledger))
  {
    var c := CurrentVersion(db.ledger);
    var p := Pending(ms, c);
    PendingAscending(ms, c);
    MigrateEffect(ms, db, ok);
    var n := CommittedSteps(p, db, ok);
    RowsAscending(p, n);
    var rows := RowsOf(p[..n]);
    assert forall i :: 0 <= i < |rows| ==> rows[i].version == p[i].version;
    AppendAscending(db.ledger, rows);
  }
}

=== FILE: service.dfy ===
/** The business layer (HospitalService): the field-format patterns, the ordered
    validation rules that report the first broken one, and registration, which
    validates and then hands the record to the repository. */
module Service {
  import opened Common
  import opened Text
  import opened HospitalModel
  import opened Repository

  /** The outcome of a service operation. `ServiceResult.ok` builds a success
      whose message defaults to "Success"; `ServiceResult.fail` builds a failure,
      which never carries data. */
  datatype ServiceResult = ServiceResult(success: bool, message: string, data: Option<Hospital>)

  const DefaultOkMessage: string := "Success"

  /** The year the validator takes as "now" for the founding-year range. */
  const CurrentYear: int := 2026

  // ---------------------------------------------------------------------------
  // Character classes of the three patterns
  // ---------------------------------------------------------------------------

  /** `[\w.%+\-]`, `[\w.\-]`, `[a-zA-Z]`, `\d` and the PIN code's `[A-Z0-9\s\-]`
      (compiled case-insensitively, so lower-case letters match as well). */
  datatype CharClass = LocalChars | DomainChars | Letters | Digits | PinChars

  predicate InClass(c: char, k: CharClass) {
    match k
    case LocalChars => IsWordChar(c) || c == '.' || c == '%' || c == '+' || c == '-'
    case DomainChars => IsWordChar(c) || c == '.' || c == '-'
    case Letters => IsAsciiLetter(c)
    case Digits => IsDigit(c)
    case PinChars => IsAsciiLetter(c) || IsDigit(c) || IsSpace(c) || c == '-'
  }

  /** Every character of `s` is in class `k`, scanned left to right as the
      regex engine does. */
  predicate AllIn(s: string, k: CharClass)
    decreases |s|
  {
    |s| == 0 || (InClass(s[0], k) && AllIn(s[1..], k))
  }

  lemma {:induction false} AllInIff(s: string, k: CharClass)
    ensures AllIn(s, k) <==> forall i :: 0 <= i < |s| ==> InClass(s[i], k)
    decreases |s|
  {
    if |s| > 0 {
      AllInIff(s[1..], k);
      assert forall i :: 1 <= i < |s| ==> s[i] == s[1..][i - 1];
    }
  }

  // ---------------------------------------------------------------------------
  // Email: ^[\w.%+\-]+@[\w.\-]+\.[a-zA-Z]{2,}$
  // ---------------------------------------------------------------------------

  /** `[\w.%+\-]+` */
  predicate LocalPart(s: string) {
    |s| >= 1 && AllIn(s, LocalChars)
  }

  /** `[\w.\-]+` */
  predicate DomainPart(s: string) {
    |s| >= 1 && AllIn(s, DomainChars)
  }

  /** `[a-zA-Z]{2,}` */
  predicate TopLevel(s: string) {
    |s| >= 2 && AllIn(s, Letters)
  }

  /** `s` reads local-part, `@` at `at`, domain, `.` at `dot`, top-level label. */
  predicate EmailSplit(s: string, at: int, dot: int) {
    && 0 <= at < dot < |s|
    && LocalPart(s[..at]) && s[at] == '@'
    && DomainPart(s[at + 1..dot]) && s[dot] == '.'
    && TopLevel(s[dot + 1..])
  }

  /** The whole of `s` matches the email pattern for some way of splitting it. */
  predicate EmailShape(s: string) {
    exists at, dot | 0 <= at < dot < |s| :: EmailSplit(s, at, dot)
  }

  /** The position of the first `c` in `s`. */
  function IndexOf(s: string, c: char): (k: Option<nat>)
    ensures k.Some? ==> k.value < |s| && s[k.value] == c
    decreases |s|
  {
    if |s| == 0 then None
    else if s[0] == c then Some(0)
    else
      var k := IndexOf(s[1..], c);
      if k.None? then None else Some(k.value + 1)
  }

  lemma {:induction false} IndexOfIsFirst(s: string, c: char)
    ensures IndexOf(s, c).None? <==> forall i :: 0 <= i < |s| ==> s[i] != c
    ensures IndexOf(s, c).Some? ==> forall i :: 0 <= i < IndexOf(s, c).value ==> s[i] != c
    decreases |s|
  {
    if |s| > 0 && s[0] != c {
      IndexOfIsFirst(s[1..], c);
      assert forall i :: 0 < i < |s| ==> s[i] == s[1..][i - 1];
    }
  }

  /** The position of the last `c` in `s`. */
  function LastIndexOf(s: string, c: char): (k: Option<nat>)
    ensures k.Some? ==> k.value < |s| && s[k.value] == c
    decreases |s|
  {
    if |s| == 0 then None
    else if s[|s| - 1] == c then Some(|s| - 1)
    else LastIndexOf(s[..|s| - 1], c)
  }

  lemma {:induction false} LastIndexOfIsLast(s: string, c: char)
    ensures LastIndexOf(s, c).None? <==> forall i :: 0 <= i < |s| ==> s[i] != c
    ensures LastIndexOf(s, c).Some? ==> forall i :: LastIndexOf(s, c).value < i < |s| ==> s[i] != c
    decreases |s|
  {
    if |s| > 0 && s[|s| - 1] != c {
      LastIndexOfIsLast(s[..|s| - 1], c);
      assert forall i :: 0 <= i < |s| - 1 ==> s[i] == s[..|s| - 1][i];
    }
  }

  /** The matcher: the local part runs up to the first `@` (the class excludes
      `@`), and the top-level label starts after the last `.` (letters exclude
      `.`), so no other split needs trying. */
  function IsEmail(s: string): (b: bool)
    ensures b ==> '@' in s && 6 <= |s|
  {
    match IndexOf(s, '@')
    case None => false
    case Some(at) =>
      var d := s[at + 1..];
      match LastIndexOf(d, '.')
      case None => false
      case Some(j) => LocalPart(s[..at]) && DomainPart(d[..j]) && TopLevel(d[j + 1..])
  }

  /** The matcher accepts exactly the strings the pattern describes. */
  lemma IsEmailIffShape(s: string)
    ensures IsEmail(s) <==> EmailShape(s)
    ensures IsEmail(s) ==> exists at :: OnlyAt(s, at)
  {
    if IsEmail(s) {
      AcceptedHasShape(s);
    }
    if EmailShape(s) {
      var at: int, dot: int :| EmailSplit(s, at, dot);
      ShapeIsAccepted(s, at, dot);
      ShapeHasOneAt(s, at, dot);
      assert OnlyAt(s, at);
    }
  }

  /** Position `at` holds the one and only `@` of `s`. */
  predicate OnlyAt(s: string, at: int) {
    0 <= at < |s| && s[at] == '@' && forall i :: 0 <= i < |s| && s[i] == '@' ==> i == at
  }

  /** Soundness: the split the matcher finds is a witness for the pattern. */
  lemma AcceptedHasShape(s: string)
    requires IsEmail(s)
    ensures EmailShape(s)
  {
    var at := IndexOf(s, '@').value;
    var d := s[at + 1..];
    var j := LastIndexOf(d, '.').value;
    var dot := at + 1 + j;
    assert s[at + 1..dot] == d[..j];
    assert s[dot + 1..] == d[j + 1..];
    assert EmailSplit(s, at, dot);
  }

  /** Completeness: any split the pattern allows is the one the matcher finds. */
  lemma ShapeIsAccepted(s: string, at: int, dot: int)
    requires EmailSplit(s, at, dot)
    ensures IsEmail(s)
  {
    FirstAtOfSplit(s, at, dot);
    LastDotOfSplit(s, at, dot);
    var d := s[at + 1..];
    var j := dot - at - 1;
    assert d[..j] == s[at + 1..dot];
    assert d[j + 1..] == s[dot + 1..];
  }

  lemma FirstAtOfSplit(s: string, at: int, dot: int)
    requires EmailSplit(s, at, dot)
    ensures IndexOf(s, '@') == Some(at)
  {
    var local := s[..at];
    AllInIff(local, LocalChars);
    forall i | 0 <= i < at
      ensures s[i] != '@'
    {
      assert InClass(local[i], LocalChars);
    }
    IndexOfIsFirst(s, '@');
  }

  lemma LastDotOfSplit(s: string, at: int, dot: int)
    requires EmailSplit(s, at, dot)
    ensures LastIndexOf(s[at + 1..], '.') == Some(dot - at - 1)
  {
    var d := s[at + 1..];
    var j := dot - at - 1;
    var top := s[dot + 1..];
    AllInIff(top, Letters);
    assert d[j] == '.';
    forall i | j < i < |d|
      ensures d[i] != '.'
    {
      assert d[i] == top[i - j - 1];
      assert InClass(top[i - j - 1], Letters);
    }
    LastIndexOfIsLast(d, '.');
  }

  /** An address the pattern accepts holds exactly one `@`: neither the local
      part, the domain nor the top-level label may contain one. */
  lemma ShapeHasOneAt(s: string, at: int, dot: int)
    requires EmailSplit(s, at, dot)
    ensures forall i :: 0 <= i < |s| && s[i] == '@' ==> i == at
  {
    var local, domain, top := s[..at], s[at + 1..dot], s[dot + 1..];
    AllInIff(local, LocalChars);
    AllInIff(domain, DomainChars);
    AllInIff(top, Letters);
    forall i | 0 <= i < |s| && i != at
      ensures s[i] != '@'
    {
      if i < at {
        assert InClass(local[i], LocalChars);
      } else if i < dot {
        assert InClass(domain[i - at - 1], DomainChars);
      } else if i > dot {
        assert InClass(top[i - dot - 1], Letters);
      }
    }
  }

  // ---------------------------------------------------------------------------
  // Phone: ^\+?\d{7,15}$    PIN: ^[A-Z0-9\s\-]{4,10}$ (case-insensitive)
  // ---------------------------------------------------------------------------

  predicate AllDigits(s: string) {
    AllIn(s, Digits)
  }

  /** The optional `+` is taken when present; the rest must be 7 to 15 digits. */
  function IsPhone(s: string): (b: bool)
    ensures b <==> ((7 <= |s| <= 15 && AllDigits(s))
                    || (|s| >= 1 && s[0] == '+' && 7 <= |s| - 1 <= 15 && AllDigits(s[1..])))
  {
    var digits := if |s| > 0 && s[0] == '+' then s[1..] else s;
    7 <= |digits| <= 15 && AllDigits(digits)
  }

  /** A leading `+` is optional: a run of digits is a phone number with or
      without it. */
  lemma PlusIsOptional(s: string)
    requires AllDigits(s)
    ensures IsPhone(s) <==> IsPhone("+" + s)
  {
    assert ("+" + s)[1..] == s;
  }

  /** Four to ten letters, digits, whitespace or hyphens; the pattern's `[A-Z]`
      matches lower case too because it is compiled case-insensitively. */
  predicate IsPin(s: string) {
    4 <= |s| <= 10 && AllIn(s, PinChars)
  }

  /** The scan agrees with the pattern read character by character. */
  lemma PinIff(s: string)
    ensures IsPin(s) <==> 4 <= |s| <= 10 && forall i :: 0 <= i < |s| ==> InClass(s[i], PinChars)
  {
    AllInIff(s, PinChars);
  }

  lemma {:induction false} PinCaseInsensitive(s: string)
    ensures IsPin(s) <==> IsPin(Lower(s))
  {
    var l := Lower(s);
    AllInIff(s, PinChars);
    AllInIff(l, PinChars);
    forall i | 0 <= i < |s|
      ensures InClass(s[i], PinChars) <==> InClass(l[i], PinChars)
    {
      assert l[i] == LowerChar(s[i]);
    }
  }

  /** Six-digit Indian PIN codes and alphanumeric postcodes with an inner space
      pass. */
  lemma PinExamplesAccepted()
    ensures IsPin("560001") && IsPin("SW1A 1AA") && IsPin("ab-12")
  {
  }

  /** Too short, too long or with another symbol does not. */
  lemma PinExamplesRejected()
    ensures !IsPin("123") && !IsPin("56000#") && !IsPin("12345678901")
  {
    assert !InClass("56000#"[5], PinChars);
  }

  // ---------------------------------------------------------------------------
  // Validation
  // ---------------------------------------------------------------------------

  const MandatoryLabels: seq<string> := [
    "Hospital Name", "Registration Number", "Hospital Type", "Specialization Type",
    "Address Line 1", "City", "State", "PIN Code", "Country", "Primary Phone",
    "Emergency Contact", "Email", "Administrator Name", "License Number"]

  /** The mandatory text fields, in the order they are checked. */
  function MandatoryValues(h: Hospital): (vs: seq<string>)
    ensures |vs| == |MandatoryLabels| == 14
  {
    [ h.hospitalName, h.registrationNumber, h.hospitalType, h.specializationType,
      h.addressLine1, h.city, h.state, h.pinCode, h.country, h.phonePrimary,
      h.emergencyContact, h.email, h.administratorName, h.licenseNumber ]
  }

  /** A text field is filled in when it is not whitespace only. */
  predicate Filled(s: string) {
    !Blank(s)
  }

  /** That is, when its stripped value is not empty, which is how the
      validator tests it. */
  lemma FilledIffStripNonEmpty(s: string)
    ensures Filled(s) <==> Strip(s) != []
  {
    StripEmptyIffBlankScan(s);
  }

  /** The first value whose stripped form is empty, scanning in order. */
  function FirstBlank(vs: seq<string>): (k: Option<nat>)
    ensures k.None? <==> forall i :: 0 <= i < |vs| ==> Filled(vs[i])
    ensures k.Some? ==> k.value < |vs| && !Filled(vs[k.value])
    ensures k.Some? ==> forall i :: 0 <= i < k.value ==> Filled(vs[i])
  {
    if |vs| == 0 then None
    else if !Filled(vs[0]) then Some(0)
    else
      var k := FirstBlank(vs[1..]);
      assert forall i :: 0 < i < |vs| ==> vs[i] == vs[1..][i - 1];
      if k.None? then None else Some(k.value + 1)
  }

  /** Every mandatory text field is filled in. */
  predicate AllFilled(h: Hospital) {
    && Filled(h.hospitalName) && Filled(h.registrationNumber) && Filled(h.hospitalType)
    && Filled(h.specializationType) && Filled(h.addressLine1) && Filled(h.city)
    && Filled(h.state) && Filled(h.pinCode) && Filled(h.country) && Filled(h.phonePrimary)
    && Filled(h.emergencyContact) && Filled(h.email) && Filled(h.administratorName)
    && Filled(h.licenseNumber)
  }

  /** Scanning the mandatory list finds no blank field exactly when every
      mandatory field is filled in. */
  lemma NoBlankIffAllFilled(h: Hospital)
    ensures FirstBlank(MandatoryValues(h)).None? <==> AllFilled(h)
  {
    var vs := MandatoryValues(h);
    assert && vs[0] == h.hospitalName && vs[1] == h.registrationNumber
           && vs[2] == h.hospitalType && vs[3] == h.specializationType
           && vs[4] == h.addressLine1 && vs[5] == h.city && vs[6] == h.state
           && vs[7] == h.pinCode && vs[8] == h.country && vs[9] == h.phonePrimary
           && vs[10] == h.emergencyContact && vs[11] == h.email
           && vs[12] == h.administratorName && vs[13] == h.licenseNumber;
  }

  /** Beds and theatres: a positive bed count, ICU beds between zero and the
      total, no negative theatre count. */
  predicate CapacityOk(h: Hospital) {
    0 < h.totalBeds && 0 <= h.icuBeds <= h.totalBeds && 0 <= h.operationTheaters
  }

  predicate YearOk(h: Hospital) {
    1800 <= h.establishedYear <= CurrentYear
  }

  /** The stripped email, phones and PIN code have their expected shapes. */
  predicate FormatsOk(h: Hospital) {
    ContactFormatsOk(h.email, h.phonePrimary, h.emergencyContact, h.pinCode)
  }

  predicate ContactFormatsOk(email: string, phone: string, emergency: string, pin: string) {
    && IsEmail(Strip(email))
    && IsPhone(Strip(phone)) && IsPhone(Strip(emergency))
    && IsPin(Strip(pin))
  }

  /** No row other than the record's own holds its stripped registration or
      license number. */
  predicate KeysFree(t: Table, h: Hospital) {
    KeysFreeFor(t, h.registrationNumber, h.licenseNumber, h.id)
  }

  predicate KeysFreeFor(t: Table, regNo: string, licenseNo: string, id: Option<int>) {
    && (forall i :: 0 <= i < |t.rows| && NotExcluded(t.rows[i], id) ==>
          t.rows[i].cols.registrationNumber != Strip(regNo))
    && (forall i :: 0 <= i < |t.rows| && NotExcluded(t.rows[i], id) ==>
          t.rows[i].cols.licenseNumber != Strip(licenseNo))
  }

  /** The two repository queries the validator asks answer "no" exactly when
      the keys are free. */
  lemma KeysFreeIffNoMatch(t: Table, regNo: string, licenseNo: string, id: Option<int>)
    ensures KeysFreeFor(t, regNo, licenseNo, id)
        <==> !ExistsRegistrationNumber(t, Strip(regNo), id) && !ExistsLicenseNumber(t, Strip(licenseNo), id)
  {
  }

  /** Everything the validator demands. */
  predicate Valid(t: Table, h: Hospital) {
    AllFilled(h) && CapacityOk(h) && YearOk(h) && FormatsOk(h) && KeysFree(t, h)
  }

  /** The uniqueness rules, registration number first. */
  function ValidateKeys(t: Table, h: Hospital): (r: ServiceResult)
    ensures r.data.None?
    ensures r.success <==> KeysFree(t, h)
    ensures r.success ==> r.message == DefaultOkMessage
  {
    KeysFreeIffNoMatch(t, h.registrationNumber, h.licenseNumber, h.id);
    if ExistsRegistrationNumber(t, Strip(h.registrationNumber), h.id) then
      ServiceResult(false, "Registration Number '" + h.registrationNumber + "' is already in use.", None)
    else if ExistsLicenseNumber(t, Strip(h.licenseNumber), h.id) then
      ServiceResult(false, "License Number '" + h.licenseNumber + "' is already in use.", None)
    else
      ServiceResult(true, DefaultOkMessage, None)
  }

  /** The format rules: email, primary phone, emergency contact, PIN code. */
  function ValidateFormats(t: Table, h: Hospital): (r: ServiceResult)
    ensures r.data.None?
    ensures r.success <==> FormatsOk(h) && KeysFree(t, h)
    ensures r.success ==> r.message == DefaultOkMessage
  {
    if !IsEmail(Strip(h.email)) then ServiceResult(false, "Email address format is invalid.", None)
    else if !IsPhone(Strip(h.phonePrimary)) then ServiceResult(false, "Primary Phone number format is invalid.", None)
    else if !IsPhone(Strip(h.emergencyContact)) then ServiceResult(false, "Emergency Contact format is invalid.", None)
    else if !IsPin(Strip(h.pinCode)) then ServiceResult(false, "PIN Code format is invalid.", None)
    else ValidateKeys(t, h)
  }

  /** The founding year lies between 1800 and the current year. */
  function ValidateYear(t: Table, h: Hospital): (r: ServiceResult)
    ensures r.data.None?
    ensures r.success <==> YearOk(h) && FormatsOk(h) && KeysFree(t, h)
    ensures r.success ==> r.message == DefaultOkMessage
  {
    if !(1800 <= h.establishedYear <= CurrentYear) then
      ServiceResult(false, "Established Year must be between 1800 and 2026.", None)
    else ValidateFormats(t, h)
  }

  /** The capacity rules: beds, ICU beds, theatres. */
  function ValidateCapacity(t: Table, h: Hospital): (r: ServiceResult)
    ensures r.data.None?
    ensures r.success <==> CapacityOk(h) && YearOk(h) && FormatsOk(h) && KeysFree(t, h)
    ensures r.success ==> r.message == DefaultOkMessage
  {
    if h.totalBeds <= 0 then ServiceResult(false, "Total Beds must be greater than 0.", None)
    else if h.icuBeds < 0 then ServiceResult(false, "ICU Beds cannot be negative.", None)
    else if h.icuBeds > h.totalBeds then ServiceResult(false, "ICU Beds cannot exceed Total Beds.", None)
    else if h.operationTheaters < 0 then ServiceResult(false, "Operation Theaters cannot be negative.", None)
    else ValidateYear(t, h)
  }

  /** `_validate`: the mandatory fields, then the numeric, format and
      uniqueness rules, reporting the first one broken. */
  function Validate(t: Table, h: Hospital): (r: ServiceResult)
    ensures Valid(t, h) ==> r == ServiceResult(true, DefaultOkMessage, None)
    ensures !Valid(t, h) ==> !r.success && r.data.None?
  {
    var blank := FirstBlank(MandatoryValues(h));
    NoBlankIffAllFilled(h);
    if blank.Some? then ServiceResult(false, MandatoryLabels[blank.value] + " is required.", None)
    else ValidateCapacity(t, h)
  }

  /** With every mandatory field filled, validation continues with the
      capacity rules. */
  lemma ReachesCapacity(t: Table, h: Hospital)
    requires AllFilled(h)
    ensures Validate(t, h) == ValidateCapacity(t, h)
  {
    NoBlankIffAllFilled(h);
  }

  /** With the numeric rules also satisfied, it continues with the formats. */
  lemma ReachesFormats(t: Table, h: Hospital)
    requires AllFilled(h) && CapacityOk(h) && YearOk(h)
    ensures Validate(t, h) == ValidateFormats(t, h)
  {
    ReachesCapacity(t, h);
    assert ValidateCapacity(t, h) == ValidateYear(t, h);
  }

  /** With the formats also right, only the uniqueness rules remain. */
  lemma ReachesKeys(t: Table, h: Hospital)
    requires AllFilled(h) && CapacityOk(h) && YearOk(h) && FormatsOk(h)
    ensures Validate(t, h) == ValidateKeys(t, h)
  {
    ReachesFormats(t, h);
  }

  /** Mandatory fields are reported in their listed order: the first blank one
      wins over every later rule. */
  lemma RequiredInOrder(t: Table, h: Hospital, k: int)
    requires 0 <= k < 14
    requires forall j :: 0 <= j < k ==> Filled(MandatoryValues(h)[j])
    requires !Filled(MandatoryValues(h)[k])
    ensures Validate(t, h) == ServiceResult(false, MandatoryLabels[k] + " is required.", None)
  {
    var blank := FirstBlank(MandatoryValues(h));
    assert blank.Some?;
    assert blank.value == k;
  }

  /** The default country is filled in; an empty string is not. */
  lemma DefaultCountryFilled()
    ensures Filled("India") && !Filled("")
  {
    assert !IsSpace("India"[0]);
  }

  /** A record built from the eight leading fields alone, all filled in, is
      first refused for its empty primary phone. */
  lemma DefaultsLackPhone(t: Table, name: string, reg: string, ty: string, sp: string,
                          addr: string, city: string, state: string, pin: string)
    requires Filled(name) && Filled(reg) && Filled(ty) && Filled(sp)
    requires Filled(addr) && Filled(city) && Filled(state) && Filled(pin)
    ensures Validate(t, NewHospital(name, reg, ty, sp, addr, city, state, pin))
         == ServiceResult(false, "Primary Phone is required.", None)
  {
    var h := NewHospital(name, reg, ty, sp, addr, city, state, pin);
    DefaultCountryFilled();
    var vs := MandatoryValues(h);
    assert vs[..10] == [name, reg, ty, sp, addr, city, state, pin, "India", ""];
    assert forall j :: 0 <= j < 9 ==> Filled(vs[j]) by {
      forall j | 0 <= j < 9
        ensures Filled(vs[j])
      {
        assert vs[j] == vs[..10][j];
      }
    }
    RequiredInOrder(t, h, 9);
  }

  /** Once every mandatory field is filled, the capacity and year rules are
      checked in order, each with its own message. */
  lemma RangeRulesInOrder(t: Table, h: Hospital)
    requires AllFilled(h)
    ensures h.totalBeds <= 0 ==> Validate(t, h) == ServiceResult(false, "Total Beds must be greater than 0.", None)
    ensures h.totalBeds > 0 && h.icuBeds < 0 ==> Validate(t, h) == ServiceResult(false, "ICU Beds cannot be negative.", None)
    ensures (h.totalBeds > 0 && 0 <= h.icuBeds && h.icuBeds > h.totalBeds ==>
              Validate(t, h) == ServiceResult(false, "ICU Beds cannot exceed Total Beds.", None))
    ensures (0 <= h.icuBeds <= h.totalBeds && 0 < h.totalBeds && h.operationTheaters < 0 ==>
              Validate(t, h) == ServiceResult(false, "Operation Theaters cannot be negative.", None))
    ensures (CapacityOk(h) && !YearOk(h) ==>
              Validate(t, h) == ServiceResult(false, "Established Year must be between 1800 and 2026.", None))
  {
    ReachesCapacity(t, h);
  }

  /** The founding-year range is inclusive at both ends: changing only the
      year of a valid record keeps it valid exactly when the new year lies in
      1800..2026. */
  lemma YearBoundaries(t: Table, h: Hospital, year: int)
    requires Valid(t, h)
    ensures Validate(t, h.(establishedYear := year)).success <==> 1800 <= year <= 2026
  {
    var h' := h.(establishedYear := year);
    assert MandatoryValues(h') == MandatoryValues(h);
    assert AllFilled(h') && CapacityOk(h') && FormatsOk(h') && KeysFree(t, h');
  }

  /** ICU beds may equal the total. */
  lemma IcuMayEqualTotal(t: Table, h: Hospital)
    requires Valid(t, h)
    ensures Validate(t, h.(icuBeds := h.totalBeds)).success
  {
    var h' := h.(icuBeds := h.totalBeds);
    assert MandatoryValues(h') == MandatoryValues(h);
    assert Valid(t, h') by {
      assert AllFilled(h') && FormatsOk(h') && KeysFree(t, h');
    }
  }

  /** After the range rules, the formats are checked in order: email, primary
      phone, emergency contact, PIN code. */
  lemma FormatRulesInOrder(t: Table, h: Hospital)
    requires AllFilled(h) && CapacityOk(h) && YearOk(h)
    ensures !EmailShape(Strip(h.email)) ==> Validate(t, h) == ServiceResult(false, "Email address format is invalid.", None)
    ensures (EmailShape(Strip(h.email)) && !IsPhone(Strip(h.phonePrimary)) ==>
              Validate(t, h) == ServiceResult(false, "Primary Phone number format is invalid.", None))
    ensures (EmailShape(Strip(h.email)) && IsPhone(Strip(h.phonePrimary)) && !IsPhone(Strip(h.emergencyContact)) ==>
              Validate(t, h) == ServiceResult(false, "Emergency Contact format is invalid.", None))
    ensures (EmailShape(Strip(h.email)) && IsPhone(Strip(h.phonePrimary)) && IsPhone(Strip(h.emergencyContact))
             && !IsPin(Strip(h.pinCode)) ==>
              Validate(t, h) == ServiceResult(false, "PIN Code format is invalid.", None))
  {
    ReachesFormats(t, h);
    IsEmailIffShape(Strip(h.email));
  }

  /** A registration number another row already holds is reported after every
      format rule; the message quotes the number as entered, unstripped. */
  lemma DuplicateRegistrationReported(t: Table, h: Hospital, i: int)
    requires AllFilled(h) && CapacityOk(h) && YearOk(h) && FormatsOk(h)
    requires 0 <= i < |t.rows| && NotExcluded(t.rows[i], h.id)
    requires t.rows[i].cols.registrationNumber == Strip(h.registrationNumber)
    ensures Validate(t, h) == ServiceResult(false, "Registration Number '" + h.registrationNumber + "' is already in use.", None)
  {
    ReachesKeys(t, h);
    assert ExistsRegistrationNumber(t, Strip(h.registrationNumber), h.id);
  }

  /** The license number is checked last. */
  lemma DuplicateLicenseReported(t: Table, h: Hospital, i: int)
    requires AllFilled(h) && CapacityOk(h) && YearOk(h) && FormatsOk(h)
    requires forall j :: 0 <= j < |t.rows| && NotExcluded(t.rows[j], h.id) ==>
               t.rows[j].cols.registrationNumber != Strip(h.registrationNumber)
    requires 0 <= i < |t.rows| && NotExcluded(t.rows[i], h.id)
    requires t.rows[i].cols.licenseNumber == Strip(h.licenseNumber)
    ensures Validate(t, h) == ServiceResult(false, "License Number '" + h.licenseNumber + "' is already in use.", None)
  {
    ReachesKeys(t, h);
    assert !ExistsRegistrationNumber(t, Strip(h.registrationNumber), h.id);
    assert ExistsLicenseNumber(t, Strip(h.licenseNumber), h.id);
  }

  /** The validator never consults the drop-down lists: any filled-in hospital
      type, specialization or state is accepted, and the accreditation is not
      looked at at all. */
  lemma ChoicesNotChecked(t: Table, h: Hospital, ty: string, sp: string, st: string, acc: string)
    requires Filled(h.hospitalType) && Filled(h.specializationType) && Filled(h.state)
    requires Filled(ty) && Filled(sp) && Filled(st)
    ensures Validate(t, h.(hospitalType := ty, specializationType := sp, state := st, accreditation := acc)).success
        == Validate(t, h).success
  {
    var h' := h.(hospitalType := ty, specializationType := sp, state := st, accreditation := acc);
    assert h'.email == h.email && h'.phonePrimary == h.phonePrimary
        && h'.emergencyContact == h.emergencyContact && h'.pinCode == h.pinCode
        && h'.registrationNumber == h.registrationNumber
        && h'.licenseNumber == h.licenseNumber && h'.id == h.id;
    assert FormatsOk(h') == FormatsOk(h);
    assert KeysFree(t, h') == KeysFree(t, h);
    assert AllFilled(h) <==> AllFilled(h');
    assert CapacityOk(h') == CapacityOk(h) && YearOk(h') == YearOk(h);
    assert Valid(t, h') == Valid(t, h);
    assert Validate(t, h').success == Valid(t, h');
  }


  // ---------------------------------------------------------------------------
  // Registration and the read operations
  // ---------------------------------------------------------------------------

  /** `register_hospital`: validate; on success insert through the repository
      and report the assigned id; any exception from the insert, a value too
      large to bind included, becomes "Database error: ...". Returns the result
      and the table afterwards. */
  function RegisterHospital(t: Table, h: Hospital, now: string): (r: (ServiceResult, Table))
    ensures !Valid(t, h) ==> r == (Validate(t, h), t)
    ensures Valid(t, h) ==> (r.0.success <==> Bindable(ToParams(h).cols) && Admissible(t.rows, ToParams(h).cols, None))
    ensures !r.0.success ==> r.1 == t && r.0.data.None?
    ensures Valid(t, h) && !Bindable(ToParams(h).cols) ==>
      r.0 == ServiceResult(false, "Database error: " + TooLargeForInteger, None)
    ensures Valid(t, h) && Bindable(ToParams(h).cols) && !Admissible(t.rows, ToParams(h).cols, None) ==>
      r.0 == ServiceResult(false, "Database error: " + ConstraintViolation(t.rows, ToParams(h).cols, None).value, None)
    ensures r.0.success ==>
      && r.0.data == Some(h.(id := Some(NextId(t))))
      && r.1 == Table(t.rows + [Row(NextId(t), ToParams(h).cols, now, now)], NextId(t))
      && r.0.message == "Hospital '" + h.hospitalName + "' registered successfully (ID: "
                        + IntToString(NextId(t)) + ")."
  {
    var v := Validate(t, h);
    if !v.success then (v, t)
    else
      match Add(t, h, now)
      case Err(e) => (ServiceResult(false, "Database error: " + e.message, None), t)
      case Ok((t', saved)) =>
        (ServiceResult(true, "Hospital '" + saved.hospitalName + "' registered successfully (ID: "
                  + IntToString(saved.id.value) + ").", Some(saved)), t')
  }

  /** With no id to skip and keys already stripped, free keys and a positive
      bed count satisfy every storage constraint. */
  lemma FreeKeysAdmissible(t: Table, h: Hospital)
    requires KeysFree(t, h) && h.totalBeds > 0 && h.id.None?
    requires Strip(h.registrationNumber) == h.registrationNumber
    requires Strip(h.licenseNumber) == h.licenseNumber
    ensures Admissible(t.rows, ToParams(h).cols, None)
  {
    var cols := ToParams(h).cols;
    KeysFreeIffNoMatch(t, h.registrationNumber, h.licenseNumber, h.id);
    assert !ExistsKey(t.rows, RegistrationNumber, cols.registrationNumber, None);
    assert !ExistsKey(t.rows, LicenseNumber, cols.licenseNumber, None);
    NoKeyMeansAdmissible(t.rows, cols, None);
  }

  /** When the record carries no id and its keys are already stripped, a record
      that passes validation is stored exactly when its integers fit the INTEGER
      range: validation puts no upper bound on the capacities. */
  lemma ValidRecordIsStored(t: Table, h: Hospital, now: string)
    requires Valid(t, h) && h.id.None?
    requires Strip(h.registrationNumber) == h.registrationNumber
    requires Strip(h.licenseNumber) == h.licenseNumber
    ensures RegisterHospital(t, h, now).0.success <==> Bindable(ToParams(h).cols)
  {
    FreeKeysAdmissible(t, h);
  }

  const RegistrationClash := UniqueFailed + "hospitals.registration_number"
  const LicenseClash := UniqueFailed + "hospitals.license_number"

  /** No row holds this license number. */
  predicate LicenseUnused(t: Table, license: string) {
    forall j :: 0 <= j < |t.rows| ==> t.rows[j].cols.licenseNumber != license
  }

  /** A record whose id names an existing row holding the same registration
      number passes validation, yet the insert hits a unique index: the one on
      the registration number when the license number is unused. */
  lemma PresetIdViolates(t: Table, h: Hospital, i: int)
    requires 0 <= i < |t.rows| && h.id == Some(t.rows[i].id) && h.totalBeds > 0
    requires t.rows[i].cols.registrationNumber == h.registrationNumber
    ensures ConstraintViolation(t.rows, ToParams(h).cols, None) in {Some(RegistrationClash), Some(LicenseClash)}
    ensures LicenseUnused(t, h.licenseNumber)
        ==> ConstraintViolation(t.rows, ToParams(h).cols, None) == Some(RegistrationClash)
  {
    var cols := ToParams(h).cols;
    assert KeyOf(t.rows[i].cols, RegistrationNumber) == cols.registrationNumber;
    assert cols.totalBeds > 0;
    assert ExistsKey(t.rows, RegistrationNumber, cols.registrationNumber, None);
  }

  /** Validation skips the row whose id the record already carries, but the
      insert ignores that id and allocates a new one, so the duplicate number is
      only caught by the storage constraint, and the table is unchanged. */
  lemma PresetIdCaughtByStorage(t: Table, h: Hospital, now: string, i: int)
    requires Valid(t, h)
    requires 0 <= i < |t.rows| && h.id == Some(t.rows[i].id)
    requires t.rows[i].cols.registrationNumber == h.registrationNumber
    ensures RegisterHospital(t, h, now).1 == t
    ensures Bindable(ToParams(h).cols)
        ==> RegisterHospital(t, h, now).0
              in {ServiceResult(false, "Database error: " + RegistrationClash, None),
                  ServiceResult(false, "Database error: " + LicenseClash, None)}
    ensures Bindable(ToParams(h).cols) && LicenseUnused(t, h.licenseNumber)
        ==> RegisterHospital(t, h, now).0 == ServiceResult(false, "Database error: " + RegistrationClash, None)
    ensures !Bindable(ToParams(h).cols)
        ==> RegisterHospital(t, h, now).0 == ServiceResult(false, "Database error: " + TooLargeForInteger, None)
  {
    PresetIdViolates(t, h, i);
    assert Validate(t, h).success;
    if Bindable(ToParams(h).cols) {
      var m := ConstraintViolation(t.rows, ToParams(h).cols, None).value;
      assert Add(t, h, now) == Err(IntegrityError(m));
    }
  }

  /** The uniqueness rules compare the stripped input with the values as stored,
      and the insert stores the input unstripped, so a stored number with
      surrounding spaces does not block the same number entered without them. */
  lemma PaddedNumberNotBlocked(t: Table, h: Hospital, now: string, i: int)
    requires Valid(t, h) && h.id.None?
    requires Strip(h.registrationNumber) == h.registrationNumber
    requires Strip(h.licenseNumber) == h.licenseNumber
    requires 0 <= i < |t.rows| && Strip(t.rows[i].cols.registrationNumber) == h.registrationNumber
    ensures RegisterHospital(t, h, now).0.success <==> Bindable(ToParams(h).cols)
    ensures var (r, t') := RegisterHospital(t, h, now);
      r.success ==> Strip(t'.rows[i].cols.registrationNumber) == Strip(t'.rows[|t.rows|].cols.registrationNumber)
  {
    ValidRecordIsStored(t, h, now);
    var (r, t') := RegisterHospital(t, h, now);
    if r.success {
      assert t'.rows[i] == t.rows[i];
      assert t'.rows[|t.rows|].cols.registrationNumber == h.registrationNumber;
    }
  }

  /** A successful registration keeps the table's constraints. */
  lemma RegisterPreservesWf(t: Table, h: Hospital, now: string)
    requires Wf(t)
    ensures Wf(RegisterHospital(t, h, now).1)
  {
    if Valid(t, h) {
      AddPreservesWf(t, h, now);
    }
  }

  /** The record a successful registration returns can be read back by its id. */
  lemma RegisteredIsFound(t: Table, h: Hospital, now: string)
    requires RegisterHospital(t, h, now).0.success
    ensures var (r, t') := RegisterHospital(t, h, now);
      && GetHospital(t', r.data.value.id.value).Some?
      && SameRecord(GetHospital(t', r.data.value.id.value).value, h)
  {
    AddThenFind(t, h, now);
  }

  /** `get_hospital`: the record read from the row with this key, or None. */
  function GetHospital(t: Table, id: int): (r: Option<Hospital>)
    ensures r.None? <==> forall i :: 0 <= i < |t.rows| ==> t.rows[i].id != id
    ensures r.Some? ==> r.value.id == Some(id)
    ensures r.Some? ==> exists i :: 0 <= i < |t.rows| && t.rows[i].id == id && r.value == FromRow(t.rows[i])
    ensures Wf(t) ==> forall i :: 0 <= i < |t.rows| && t.rows[i].id == id ==> r == Some(FromRow(t.rows[i]))
  {
    forall i | 0 <= i < |t.rows| && t.rows[i].id == id && Wf(t)
      ensures FindById(t, id) == Some(FromRow(t.rows[i]))
    {
      FindByIdExact(t, i);
    }
    FindById(t, id)
  }

  /** `get_all_hospitals`: the active hospitals, sorted by name. */
  function GetAllHospitals(t: Table): (r: seq<Hospital>)
    ensures SortedByName(r)
    ensures forall x :: x in r ==> x.isActive
    ensures forall x :: x in r <==> exists i :: 0 <= i < |t.rows| && t.rows[i].cols.isActive == 1 && x == FromRow(t.rows[i])
    ensures multiset(r) == multiset(Select(t.rows, [ActiveIsOne]))
    ensures Wf(t) ==> DistinctIds(r)
  {
    assert Conditions(Query(None, None, None, true)) == [ActiveIsOne];
    FindAll(t, true)
  }

  /** `is_first_run`: no hospital stored, active or not. */
  function IsFirstRun(t: Table): (b: bool)
    ensures b <==> |t.rows| == 0
  {
    |FindAll(t, false)| == 0
  }

  /** On the first run a valid record is registered exactly when its integers
      fit the INTEGER range, and the first successful registration ends the
      first run. */
  lemma RegisterEndsFirstRun(t: Table, h: Hospital, now: string)
    ensures IsFirstRun(t) && Valid(t, h) ==> (RegisterHospital(t, h, now).0.success <==> Bindable(ToParams(h).cols))
    ensures RegisterHospital(t, h, now).0.success ==> !IsFirstRun(RegisterHospital(t, h, now).1)
  {
    if IsFirstRun(t) && Valid(t, h) {
      NoKeyMeansAdmissible(t.rows, ToParams(h).cols, None);
    }
  }
}

=== FILE: text.dfy ===
/** Character classes and string helpers shared by the validator and the
    repository. Only the ASCII part of Python's Unicode-aware classes is
    modelled: `\s`, `\d` and `\w` below accept ASCII characters alone. */
module Text {

  /** The ASCII characters for which Python's `str.isspace()` holds; `str.strip()`
      removes them and the regex class `\s` matches them. */
  predicate IsSpace(c: char) {
    c == ' ' || ('\t' <= c <= '\r') || ('\U{1c}' <= c <= '\U{1f}')
  }

  /** `\d`, restricted to ASCII. */
  predicate IsDigit(c: char) {
    '0' <= c <= '9'
  }

  /** `[a-zA-Z]`. */
  predicate IsAsciiLetter(c: char) {
    ('a' <= c <= 'z') || ('A' <= c <= 'Z')
  }

  /** `\w`, restricted to ASCII: letters, digits and underscore. */
  predicate IsWordChar(c: char) {
    IsAsciiLetter(c) || IsDigit(c) || c == '_'
  }

  predicate AllSpace(s: string) {
    forall i :: 0 <= i < |s| ==> IsSpace(s[i])
  }

  // ---------------------------------------------------------------------------
  // str.strip()
  // ---------------------------------------------------------------------------

  /** `s.strip()`: whitespace is removed from both ends, one character at a time,
      until neither end is whitespace. */
  function Strip(s: string): (r: string)
    ensures |r| <= |s|
    ensures r == [] || (!IsSpace(r[0]) && !IsSpace(r[|r| - 1]))
    decreases |s|
  {
    if |s| > 0 && IsSpace(s[0]) then Strip(s[1..])
    else if |s| > 0 && IsSpace(s[|s| - 1]) then Strip(s[..|s| - 1])
    else s
  }

  /** `r` is the slice of `s` starting at `i`, with only whitespace around it. */
  predicate StrippedAt(s: string, r: string, i: int) {
    0 <= i && i + |r| <= |s| && r == s[i..i + |r|]
    && AllSpace(s[..i]) && AllSpace(s[i + |r|..])
  }

  /** The stripped value is a contiguous slice of the input with only
      whitespace outside it. */
  lemma {:induction false} StripIsSlice(s: string)
    ensures exists i :: StrippedAt(s, Strip(s), i)
    decreases |s|
  {
    var r := Strip(s);
    if |s| > 0 && IsSpace(s[0]) {
      StripIsSlice(s[1..]);
      var i :| StrippedAt(s[1..], r, i);
      SliceAfterLeadingSpace(s, r, i);
    } else if |s| > 0 && IsSpace(s[|s| - 1]) {
      StripIsSlice(s[..|s| - 1]);
      var i :| StrippedAt(s[..|s| - 1], r, i);
      SliceBeforeTrailingSpace(s, r, i);
    } else {
      assert StrippedAt(s, r, 0);
    }
  }

  lemma SliceAfterLeadingSpace(s: string, r: string, i: int)
    requires |s| > 0 && IsSpace(s[0]) && StrippedAt(s[1..], r, i)
    ensures StrippedAt(s, r, i + 1)
  {
    var t := s[1..];
    assert t[i..i + |r|] == s[i + 1..i + 1 + |r|];
    assert t[i + |r|..] == s[i + 1 + |r|..];
    var pre := s[..i + 1];
    forall k | 0 <= k < |pre|
      ensures IsSpace(pre[k])
    {
      if k > 0 {
        assert pre[k] == t[..i][k - 1];
      }
    }
  }

  lemma SliceBeforeTrailingSpace(s: string, r: string, i: int)
    requires |s| > 0 && IsSpace(s[|s| - 1]) && StrippedAt(s[..|s| - 1], r, i)
    ensures StrippedAt(s, r, i)
  {
    var t := s[..|s| - 1];
    assert t[i..i + |r|] == s[i..i + |r|];
    assert t[..i] == s[..i];
    var post := s[i + |r|..];
    forall k | 0 <= k < |post|
      ensures IsSpace(post[k])
    {
      if k < |post| - 1 {
        assert post[k] == t[i + |r|..][k];
      }
    }
  }

  /** A string strips to nothing exactly when it consists of whitespace only. */
  lemma {:induction false} StripEmptyIffBlank(s: string)
    ensures Strip(s) == [] <==> AllSpace(s)
    decreases |s|
  {
    if |s| > 0 && IsSpace(s[0]) {
      StripEmptyIffBlank(s[1..]);
      assert forall k :: 1 <= k < |s| ==> s[k] == s[1..][k - 1];
    } else if |s| > 0 && IsSpace(s[|s| - 1]) {
      StripEmptyIffBlank(s[..|s| - 1]);
      assert forall k :: 0 <= k < |s| - 1 ==> s[k] == s[..|s| - 1][k];
    }
  }

  /** Whitespace only, scanned left to right. */
  predicate Blank(s: string)
    decreases |s|
  {
    |s| == 0 || (IsSpace(s[0]) && Blank(s[1..]))
  }

  lemma {:induction false} BlankIffAllSpace(s: string)
    ensures Blank(s) <==> AllSpace(s)
    decreases |s|
  {
    if |s| > 0 {
      BlankIffAllSpace(s[1..]);
      assert forall i :: 1 <= i < |s| ==> s[i] == s[1..][i - 1];
    }
  }

  /** `s.strip()` is empty exactly when `s` is blank. */
  lemma StripEmptyIffBlankScan(s: string)
    ensures Strip(s) == [] <==> Blank(s)
  {
    StripEmptyIffBlank(s);
    BlankIffAllSpace(s);
  }

  /** Stripping twice is stripping once. */
  lemma StripIdempotent(s: string)
    ensures Strip(Strip(s)) == Strip(s)
  {
  }

  // ---------------------------------------------------------------------------
  // ASCII case folding and substring search (SQLite `LIKE '%x%'`)
  // ---------------------------------------------------------------------------

  function LowerChar(c: char): (d: char)
    ensures 'A' <= c <= 'Z' ==> 'a' <= d <= 'z'
    ensures !('A' <= c <= 'Z') ==> d == c
  {
    if 'A' <= c <= 'Z' then (c as int + 32) as char else c
  }

  function Lower(s: string): (r: string)
    ensures |r| == |s|
    ensures forall i :: 0 <= i < |s| ==> r[i] == LowerChar(s[i])
  {
    seq(|s|, i requires 0 <= i < |s| => LowerChar(s[i]))
  }

  /** `p` occurs in `s` starting at position `i`. */
  predicate OccursAt(s: string, p: string, i: int) {
    0 <= i <= |s| - |p| && s[i..i + |p|] == p
  }

  /** Substring search by scanning left to right. */
  function Contains(s: string, p: string): (b: bool)
    ensures b <==> exists i :: OccursAt(s, p, i)
    decreases |s|
  {
    if |p| <= |s| && s[..|p|] == p then
      assert OccursAt(s, p, 0);
      true
    else if |s| == 0 then
      assert forall i :: !OccursAt(s, p, i);
      false
    else
      var b := Contains(s[1..], p);
      assert !OccursAt(s, p, 0);
      assert b ==> exists i :: OccursAt(s, p, i) by {
        if b {
          var i :| OccursAt(s[1..], p, i);
          OccursAfterHead(s, p, i);
        }
      }
      assert (exists i :: OccursAt(s, p, i)) ==> b by {
        if exists i :: OccursAt(s, p, i) {
          var i :| OccursAt(s, p, i);
          OccursInTail(s, p, i);
        }
      }
      b
  }

  /** An occurrence in the tail is one in the whole string, one place later. */
  lemma OccursAfterHead(s: string, p: string, i: int)
    requires |s| > 0 && OccursAt(s[1..], p, i)
    ensures OccursAt(s, p, i + 1)
  {
    assert s[1..][i..i + |p|] == s[i + 1..i + 1 + |p|];
  }

  /** An occurrence after the first position is one in the tail. */
  lemma OccursInTail(s: string, p: string, i: int)
    requires |s| > 0 && OccursAt(s, p, i) && i >= 1
    ensures OccursAt(s[1..], p, i - 1)
  {
    assert s[1..][i - 1..i - 1 + |p|] == s[i..i + |p|];
  }

  /** ASCII case-insensitive substring test. */
  predicate ContainsIgnoreCase(s: string, p: string) {
    Contains(Lower(s), Lower(p))
  }

  // ---------------------------------------------------------------------------
  // SQLite's BINARY collation (ORDER BY on a TEXT column)
  // ---------------------------------------------------------------------------

  /** Code-point lexicographic order, a proper prefix sorting first. Comparing
      UTF-8 bytes, as SQLite does, orders strings the same way. */
  predicate LexLe(a: string, b: string)
    decreases |a|
  {
    |a| == 0 || (|b| > 0 && (a[0] < b[0] || (a[0] == b[0] && LexLe(a[1..], b[1..]))))
  }

  lemma {:induction false} LexLeReflexive(a: string)
    ensures LexLe(a, a)
    decreases |a|
  {
    if |a| > 0 {
      LexLeReflexive(a[1..]);
    }
  }

  lemma {:induction false} LexLeTotal(a: string, b: string)
    ensures LexLe(a, b) || LexLe(b, a)
    decreases |a|
  {
    if |a| > 0 && |b| > 0 && a[0] == b[0] {
      LexLeTotal(a[1..], b[1..]);
    }
  }

  lemma {:induction false} LexLeTransitive(a: string, b: string, c: string)
    requires LexLe(a, b) && LexLe(b, c)
    ensures LexLe(a, c)
    decreases |a|
  {
    if |a| > 0 && a[0] == b[0] && b[0] == c[0] {
      LexLeTransitive(a[1..], b[1..], c[1..]);
    }
  }

  lemma {:induction false} LexLeAntisymmetric(a: string, b: string)
    requires LexLe(a, b) && LexLe(b, a)
    ensures a == b
    decreases |a|
  {
    if |a| > 0 {
      LexLeAntisymmetric(a[1..], b[1..]);
      assert a == [a[0]] + a[1..];
      assert b == [b[0]] + b[1..];
    }
  }

  // ---------------------------------------------------------------------------
  // Decimal rendering of integers (Python's f-string `{n}`)
  // ---------------------------------------------------------------------------

  function DigitChar(d: nat): (c: char)
    requires d < 10
    ensures IsDigit(c)
  {
    ('0' as int + d) as char
  }

  function NatToString(n: nat): (r: string)
    ensures |r| >= 1
    ensures forall i :: 0 <= i < |r| ==> IsDigit(r[i])
  {
    if n < 10 then [DigitChar(n)] else NatToString(n / 10) + [DigitChar(n % 10)]
  }

  function IntToString(n: int): (r: string)
    ensures |r| >= 1
    ensures n >= 0 <==> r[0] != '-'
    ensures n < 0 ==> |r| >= 2
    ensures forall i :: (if n < 0 then 1 else 0) <= i < |r| ==> IsDigit(r[i])
  {
    if n >= 0 then NatToString(n) else "-" + NatToString(-n)
  }

  /** The number a string of decimal digits denotes, most significant digit first. */
  function DecimalValue(s: string): int {
    if |s| == 0 then 0 else DecimalValue(s[..|s| - 1]) * 10 + (s[|s| - 1] as int - '0' as int)
  }

  /** The number an optionally `-`-signed decimal string denotes. */
  function SignedValue(s: string): int {
    if |s| > 0 && s[0] == '-' then -DecimalValue(s[1..]) else DecimalValue(s)
  }

  /** `NatToString` writes `n` back readably: its digits denote `n`, with no leading zero. */
  lemma {:induction false} NatToStringValue(n: nat)
    ensures DecimalValue(NatToString(n)) == n
    ensures n > 0 ==> NatToString(n)[0] != '0'
    decreases n
  {
    if n >= 10 {
      NatToStringValue(n / 10);
      var r := NatToString(n);
      assert r[..|r| - 1] == NatToString(n / 10);
    }
  }

  /** `IntToString` writes any integer back readably, sign included, with no leading zero. */
  lemma IntToStringValue(n: int)
    ensures SignedValue(IntToString(n)) == n
    ensures n != 0 ==> IntToString(n)[if n < 0 then 1 else 0] != '0'
  {
    NatToStringValue(if n < 0 then -n else n);
    if n < 0 {
      assert IntToString(n)[1..] == NatToString(-n);
    }
  }
}
